=== FILE: README.md ===
# Miri filesystem shims, modelled in Dafny

This project models the filesystem shims of the Miri interpreter (`src/shims/fs.rs`). These shims emulate
the libc file calls of an interpreted program (the *guest*) on top of the real file system (the *host*).
The model covers:

- the **file-descriptor table** (`FileHandler`): an ordered map from `i32` descriptors to host files,
  with 0, 1 and 2 reserved. Its allocator `insert_fd_with_min_fd` scans for the first gap at or above a
  floor.
- the **descriptor shims** `open`, `fcntl`, `close`, `read`, `write` and `lseek64`, and the path shims
  `unlink`, `symlink` and `rename`. Each is a pure transition on a state of descriptor table, last OS
  error and guest memory. It returns either an abort of the interpretation (unsupported operation,
  invalid memory, time before the epoch) or a new state and a value for the guest.
- the **`open` flag decoder**, which accepts a `flags` word only if every bit in it is one the shim
  understands (the *mirror* check).
- **file metadata** (`FileMetadata::from_meta`, `from_path`, `from_fd`, `extract_sec_and_nsec`).
- the **`stat` family**: Linux `statx` (check order, supported addressing modes, the reported mask, the
  28 fields written), and macOS `stat`, `lstat` and `fstat` (the 21 fields of `struct stat`, with a pad
  after `st_rdev` on 64-bit targets).

Host calls enter as function-typed parameters. Each maps what the shim hands the host to the host's
outcome `Io<T> = Success(value) | Failure(errno)`. Libc constants and C type widths enter as a record
(`Platform.Consts`, `Platform.MacLayouts`). The isolation switch and the target OS enter as
configuration. Flag words are modelled as the set of positions of their one bits (`Platform.Bits`):
`&` is intersection, `|` is union, and `x & y != 0` is a nonempty intersection.

Files:

| file | module | contents |
|---|---|---|
| `common.dfy` | `Common` | `Option`, `Io`, fatal errors, integer ranges, `i64`/`u64` reinterpretation |
| `fd_table.dfy` | `FdTable` | the descriptor table and both allocators (as written, and corrected) |
| `platform.dfy` | `Platform` | configuration, libc constants, flag words as bit sets |
| `machine.dfy` | `Machine` | interpreter state, guest memory, `handle_not_found`, `try_unwrap_io_result` |
| `open_flags.dfy` | `OpenFlags` | the `open` flag decoder, an independent acceptance predicate, an encoder |
| `dispatch.dfy` | `Dispatch` | `open`, `fcntl`, `close`, `read`, `write`, `lseek64`, `unlink`, `symlink`, `rename` |
| `metadata.dfy` | `Metadata` | `FileMetadata` and its constructors |
| `stat.dfy` | `Stat` | `statx` and the macOS `stat` shims, with read-back functions for the fields written |
| `laws.dfy` | `Laws` | how consecutive shim calls compose |
| `scenarios.dfy` | `Scenarios` | concrete runs with the x86_64 Linux and macOS values |

The allocator is modelled as the code is written. The comment at `src/shims/fs.rs:37-40` promises the
lowest unused descriptor at or above `min_fd`. But when the scan finds no gap, the code falls back to one
past the largest key of the whole table, which can lie below `min_fd`. `FdTable.InsertFdWithMinFd`
models the code, and the discrepancy is logged under "Findings". `fcntl` uses it as written, so
`fcntl(3, F_DUPFD, 10)` with only descriptor 3 open returns 4 (`Scenarios.DupUndershootsStart`). The
corrected allocator `FdTable.InsertFdLowest` is proved to keep the promise, and to agree with `fcntl`
wherever `fcntl` keeps it (`Laws.DupAgreesWithCorrected`). `open` uses `insert_fd` as written; its minimum
is 0, so it always gets the lowest free descriptor at or above 3.

## Model

| member | source | states |
|---|---|---|
| FdTable.InsertFdWithMinFd | src/shims/fs.rs:34-63 | The new descriptor is not already in the table. The table gains exactly that entry and keeps every key in [3, i32::MAX]. When the table is empty or has a key at or above max(min_fd, 3), the result is the least free descriptor at or above that floor. Otherwise the result is one past the largest key, and every key lies below it. |
| FdTable.InsertFd | src/shims/fs.rs:30-32 | With no minimum, the new descriptor is always the least free one at or above 3, and the table gains exactly that entry. |
| FdTable.NextFd | src/shims/fs.rs:41-59 | The descriptor the allocator chooses, as written: the scan's first gap, otherwise one past the largest key, otherwise the floor. It has no contract of its own; FdTable.NextFdFacts states its properties. |
| FdTable.NextFdFacts | src/shims/fs.rs:34-63 | Under `Room`, the chosen descriptor lies in [3, i32::MAX] and is not in the table. It is the least free descriptor at or above max(min_fd, 3) when the table is empty or some key reaches that floor. Otherwise it is one past the largest key, and every key lies below it. |
| FdTable.FindGap | src/shims/fs.rs:41-54 | The gap scan over the keys at or above the floor. A gap it reports is the least free value at or above the counter and lies below some key. When it reports none, the keys are exactly counter, counter+1, … |
| FdTable.Remove | src/shims/fs.rs:207 | Removing a descriptor leaves the table valid, and its map is the old map without that key. |
| FdTable.RemoveUndoesInsert | src/shims/fs.rs:34-63 | Removing the descriptor an allocation just returned gives back the original map. |
| FdTable.InsertFdLowest | src/shims/fs.rs:37-40 | The corrected allocator keeps the promise in the comment unconditionally: the result is the least free descriptor at or above max(min_fd, 3), and the table gains exactly that entry. |
| FdTable.LowestAgreesWhenReached | src/shims/fs.rs:41-59 | Wherever the as-written allocator returns the least free descriptor (the table is empty or reaches the floor), the corrected allocator returns the same descriptor and table. |
| FdTable.InsertWithMinFdUndershoots | src/shims/fs.rs:55-59 | With only descriptor 3 open and min_fd = 10, the as-written allocator returns 4 and the corrected one returns 10. |
| Common.I64U64RoundTrip | src/shims/fs.rs:333-346 | Reinterpreting an i64 as u64 (`offset as u64`) and back (`offset as i64`) is the identity. |
| Machine.ReadAfterWrite | src/shims/fs.rs:263-272 | Reading back the guest bytes just written gives the written bytes. |
| Machine.TryUnwrapIoResult | src/shims/fs.rs:648-653 | A host success returns its value with the state unchanged. A host failure returns -1 and sets the host errno. Table and memory are never touched. |
| Machine.HandleNotFound | src/shims/fs.rs:623-628 | An unknown descriptor returns -1 and sets EBADF. The table and memory are unchanged. |
| OpenFlags.DecodeOpenFlags | src/shims/fs.rs:81-135 | Three cases are rejected: access constants wider than the low two bits, an access mode that is none of O_RDONLY/O_WRONLY/O_RDWR, and any bit outside the mirror. An accepted word reads iff its mode is not write-only and writes iff its mode is not read-only. It is writable exactly when it is not read-only. Append, truncate and create are set exactly when the word meets O_APPEND, O_TRUNC or O_CREAT. Rejected extra bits never include the access bits. |
| OpenFlags.DecodeAcceptsIff | src/shims/fs.rs:87-135 | The decoder accepts a word exactly when an independent predicate holds: the access constants fit, the mode is known, the word contains only known bits, and each of O_APPEND/O_TRUNC/O_CREAT/O_CLOEXEC is present in full or not at all. |
| OpenFlags.DecodeEncode | src/shims/fs.rs:93-135 | With well-formed constants, the word built from any request (access mode plus append/truncate/create/cloexec) is accepted with that request's options and writability. |
| OpenFlags.AcceptedIsEncoded | src/shims/fs.rs:108-135 | Every accepted word is exactly the encoding of the request read back from it. |
| Dispatch.DecodedRequest | src/shims/fs.rs:93-130 | The options of an accepted word are those of the request it encodes, and it is writable iff that request is not read-only. |
| Dispatch.Open | src/shims/fs.rs:68-145 | With isolation on, the call aborts. Otherwise it aborts exactly when the flags are unacceptable. On host failure it returns -1 with the host errno, and the table is unchanged. On host success it returns the least free descriptor at or above 3. That descriptor maps to the opened file, writable unless the mode is read-only. |
| Dispatch.Fcntl | src/shims/fs.rs:147-198 | F_GETFD returns FD_CLOEXEC for an open descriptor, else -1 with EBADF. Duplication aborts exactly for descriptors below 3 or a missing start. An unknown descriptor gives EBADF. A clone failure gives the host errno. A successful dup gets a descriptor not in the table, mapped to the clone with the original's writability. It is the least free descriptor at or above max(start, 3) when the table is empty or some key reaches that floor. Otherwise it is one past the largest key, which lies below start. Any other command aborts. |
| Dispatch.Close | src/shims/fs.rs:200-229 | The descriptor is always gone afterwards. An unknown descriptor gives -1 with EBADF. A read-only file returns 0. A writable file returns 0 or -1 with errno, following the sync outcome. |
| Dispatch.IoCap | src/shims/fs.rs:254 | The count handed to the host is the guest's count capped at both the target's and the host's isize::MAX. |
| Dispatch.Read | src/shims/fs.rs:231-283 | Without isolation the call aborts exactly when the whole uncapped buffer is inaccessible, and does so before the descriptor lookup. On success it returns the byte count, and the capped buffer holds the bytes read followed by zeros; no other guest byte changes. On failure memory is untouched and errno is set. |
| Dispatch.Write | src/shims/fs.rs:285-317 | Without isolation the call aborts exactly when the whole uncapped buffer is inaccessible, before the lookup. The host receives exactly the first capped-count guest bytes, and its result (or -1 with errno) is returned. Memory and table are unchanged. |
| Dispatch.SeekOrigin | src/shims/fs.rs:333-344 | Exactly SEEK_SET, SEEK_CUR and SEEK_END are recognised, checked in that order. SEEK_SET gives `Start` with the offset reinterpreted as u64, which reads back as the guest's i64. SEEK_CUR gives `Current` and SEEK_END gives `End`, each with the signed offset. |
| Dispatch.Lseek64 | src/shims/fs.rs:319-351 | An unknown whence gives -1 with EINVAL before the lookup. Otherwise an unknown descriptor gives EBADF, a host failure gives the host errno, and success returns the new position reinterpreted as i64. |
| Dispatch.Unlink | src/shims/fs.rs:353-363 | Returns 0 exactly when the host removes the file, else -1 with the host errno. The table is unchanged. |
| Dispatch.Symlink | src/shims/fs.rs:365-393 | Returns 0 exactly when the host creates the link, else -1 with the host errno. The table is unchanged. |
| Dispatch.Rename | src/shims/fs.rs:630-654 | A null old or new path gives -1 with EFAULT. Otherwise it returns 0 exactly when the host rename succeeds, and -1 with the host errno when it fails. |
| Metadata.ExtractSecAndNsec | src/shims/fs.rs:660-667 | An unavailable time becomes None, and a time before the epoch aborts. Otherwise the seconds and nanoseconds denote the same instant, with nanoseconds below one second. |
| Metadata.ModeKindRoundTrip | src/shims/fs.rs:721-730 | With distinct constants the mode gives back the file kind. Every kind other than regular file and directory comes back as a symbolic link. |
| Metadata.FromMeta | src/shims/fs.rs:708-740 | A host error yields None and sets errno. The call aborts exactly when a present timestamp precedes the epoch. Otherwise the metadata carries the kind's mode, the length and the three timestamps, each present iff the host had it. |
| Metadata.FromPath | src/shims/fs.rs:680-692 | The call aborts exactly when the host lookup (following links or not) succeeds with a time before the epoch. The metadata is present exactly when the lookup succeeds, and then describes the host's answer. A failed lookup sets the host errno. |
| Metadata.FromFd | src/shims/fs.rs:694-706 | An unknown descriptor yields None with EBADF. The call aborts exactly when the descriptor is open and the host's metadata for its file has a time before the epoch. Otherwise the metadata is present exactly when the host has metadata for the file, and then describes it; a host failure sets its errno. |
| Stat.Statx | src/shims/fs.rs:456-617 | The call aborts with isolation on or off Linux. A null buffer or path gives -1 with EFAULT before anything else is checked. With well-formed constants it aborts as unsupported exactly when flags or dirfd fail to fit an i32 or the addressing is not one of: absolute path, AT_FDCWD, or empty path with AT_EMPTY_PATH. An accepted call answers for the descriptor dirfd when the path is empty and AT_EMPTY_PATH is set (EBADF if dirfd is not open), and otherwise for the path, following a final link unless AT_SYMLINK_NOFOLLOW is set. The answer is as Stat.StatxAnswersFromMeta states. |
| Stat.StatxLookup | src/shims/fs.rs:533-546 | The descriptor is consulted exactly for an empty path with AT_EMPTY_PATH, and the path otherwise with the given follow choice. |
| Stat.StatxByFd | src/shims/fs.rs:540-541 | An unknown descriptor gives -1 with EBADF. An open one answers for the host's metadata of its file: -1 with the host errno on failure, an abort exactly for a time before the epoch, else 0 with the fields describing that metadata. |
| Stat.StatxByPath | src/shims/fs.rs:542-543 | Answers for the host's metadata of the path, following links or not: -1 with the host errno on failure, an abort exactly for a time before the epoch, else 0 with the fields describing that metadata. |
| Stat.StatxAnswersFromMeta | src/shims/fs.rs:540-614 | For any host answer: a failure returns -1 with its errno. A success aborts exactly when an available time precedes the epoch. Otherwise, with well-formed constants, the call returns 0, leaves the state alone, and writes the fields of the metadata that describes the host's answer. |
| Stat.StatxReply | src/shims/fs.rs:544-616 | Missing metadata returns -1. For present metadata, an abort happens only when some of the 28 statx fields with the reported mask fails its width check, and never under well-formed constants and in-range metadata. Otherwise those fields, all fitting, are written and 0 is returned. |
| Stat.ReportedMask | src/shims/fs.rs:531-575 | The mask always holds STATX_TYPE and STATX_SIZE and never anything beyond TYPE, SIZE, ATIME, BTIME and MTIME. Which time bits it holds is stated by Stat.ReportedMaskTimes. |
| Stat.StatxFields | src/shims/fs.rs:583-612 | The statx structure is 28 fields, and every field outside the mask, mode, size and the three reported times is the integer 0. What the data fields mean is stated by Stat.StatxRoundTrip. |
| Stat.ReportedMaskTimes | src/shims/fs.rs:531-575 | The reported mask holds STATX_ATIME, STATX_BTIME and STATX_MTIME exactly when the access, birth and modification times are present. |
| Stat.StatxRoundTrip | src/shims/fs.rs:560-612 | Reading the 28 statx fields back recovers the metadata exactly: mode, size, and each time whose mask bit is set. |
| Stat.StatxFieldsFit | src/shims/fs.rs:583-612 | With well-formed constants and in-range metadata, every statx field fits its width, so the checked writes never fail. |
| Stat.MacStatFields | src/shims/fs.rs:774-796 | The macOS structure is 21 unsigned fields, and every field outside the mode, size and the access, modification and birth times is 0. What the data fields mean is stated by Stat.MacStatRoundTrip. |
| Stat.MacStatRoundTrip | src/shims/fs.rs:743-801 | Reading the 21 macOS fields back recovers the mode, size and times, with each missing time read as the epoch. |
| Stat.MacStatFits | src/shims/fs.rs:774-796 | When the C types are wide enough, every value the macOS shims write fits its type. |
| Stat.MacosStatWriteBuf | src/shims/fs.rs:743-802 | In-range metadata on wide enough C types is always written. An abort means the mode exceeds u16 or some field does not fit its C type. When written, the fields all fit, 0 is returned, and they read back as the metadata with each missing time as the epoch. |
| Stat.MacosReply | src/shims/fs.rs:430-434 | An abort while gathering metadata passes through. Missing metadata returns -1 with the last error already set. Present metadata goes to `macos_stat_write_buf`. |
| Stat.MacosStat | src/shims/fs.rs:395-405 | The call aborts with isolation on or off macOS. A failed host lookup (following links) returns -1 with the host errno. A successful one aborts on a time before the epoch exactly when the host has one. It aborts as unsupported only when the mode or some field of the metadata describing the file does not fit its C type. Otherwise it writes fields that describe the host's metadata. It always succeeds when the C types are wide enough and the S_IF* constants fit u16. |
| Stat.MacosLstat | src/shims/fs.rs:408-417 | As `stat`, but the link itself is looked up. |
| Stat.MacosFstat | src/shims/fs.rs:419-436 | An unknown descriptor returns -1 with EBADF. Otherwise it behaves as `stat` on the descriptor's file. |
| Laws.OpenThenClose | src/shims/fs.rs:207-228 | A successful open hands out a descriptor of at least 3. Closing it restores the table as it was before the open, and succeeds outright for a read-only file. |
| Laws.CloseTwice | src/shims/fs.rs:207-228 | A second close of the same descriptor returns -1 with EBADF and changes no table. |
| Laws.GetfdAfterOpen | src/shims/fs.rs:160-169 | F_GETFD on a freshly opened descriptor returns FD_CLOEXEC and changes nothing. |
| Laws.DupThenClose | src/shims/fs.rs:170-194 | A duplicate is a descriptor of at least 3 that was not open. It is at least start whenever some open descriptor reaches max(start, 3). It holds the clone with the original's writability, and closing it restores the table. |
| Laws.DupAgreesWithCorrected | src/shims/fs.rs:186-192 | When some open descriptor reaches max(start, 3), F_DUPFD picks the same descriptor as the corrected allocator. |
| Laws.ReadChecksBufferFirst | src/shims/fs.rs:245-258 | With an unknown descriptor, an inaccessible buffer still aborts. An accessible buffer gives EBADF and leaves memory alone. |
| Laws.LseekChecksWhenceFirst | src/shims/fs.rs:333-341 | An unknown whence gives EINVAL whatever the descriptor. |
| Laws.SeekSetPreservesOffset | src/shims/fs.rs:333-334 | The u64 that SEEK_SET hands the host reads back as the guest's offset. |
| Scenarios.LinuxConstsWellFormed | src/shims/fs.rs:81-88 | The x86_64 Linux values satisfy every assumption the proofs make about constants. |
| Scenarios.CreateFlagsDecode | src/shims/fs.rs:108-135 | O_WRONLY, O_CREAT, O_TRUNC and O_CLOEXEC together decode to a writable create-and-truncate open. |
| Scenarios.UnknownFlagRejected | src/shims/fs.rs:133-135 | O_NONBLOCK is rejected as unsupported, naming that bit. |
| Scenarios.OpenCloseRun | src/shims/fs.rs:30-63 | Three opens on a fresh table get 3, 4 and 5. Closing 4 returns 0, and the next open gets 4 again. |
| Scenarios.DupUndershootsStart | src/shims/fs.rs:186-192 | `fcntl(3, F_DUPFD, 10)` with only descriptor 3 open returns 4, below the requested minimum. |
| Scenarios.StatxMaskOnlyMtime | src/shims/fs.rs:531-575 | A host that supplies only the modification time gets the mask {TYPE, SIZE, MTIME}, and no access or birth time bit. |
| Scenarios.MacStatFitsOn64Bit | src/shims/fs.rs:762-796 | On 64-bit macOS, `macos_stat_write_buf` never aborts for in-range metadata. |

## Left out

- Reading guest strings (`read_os_str_from_c_str`): path shims take the path strings as parameters, next to the pointers they come from. Failures of these reads are not modelled.
- The byte encoding of the `stat` structures (`write_packed_immediates`): the model stops at the list of (value, width) fields. Alignment, endianness and `ref_to_mplace`/`deref_operand` failures are left out.
- `read_scalar(..).to_i32()` and similar operand conversions: arguments arrive as integers of the right type. `statx`'s `flags` and `dirfd` are the exception; their `i32` conversion is modelled.
- `unlink` and `symlink` are modelled only as passthroughs of the host outcome. The Windows branch of `create_link` (directory or file link) belongs to the host call.
- `system_time_to_duration` (in the time shims) is not part of this model. A time before the epoch is represented directly as an abort.
- FdTable.InsertFdWithMinFd: requires `Room`, i.e. a free descriptor below `i32::MAX` whenever `i32::MAX` is taken. This rules out the `i32` overflow of `key + 1`, which in the source panics or wraps depending on the build.
- Dispatch.Open: requires `Room(table, 0)` for the same reason.
- Dispatch.Fcntl: requires `Room(table, start)` for the same reason.
- Dispatch.Read: the host is assumed never to report more bytes than requested (the source unwraps this).
- Stat.Statx: the path is absolute when it starts with `/`, as on a Unix host. The mode is assumed to fit `u16` (`ModesFitU16`), because the source treats any other value as a bug in libc.
- Stat.MacosStat: success is guaranteed outright only when the C types are wide enough and the S_IF* constants fit `u16` (`ModesFitU16`). Elsewhere an unsupported abort is promised only to come from a value that does not fit. The source's `metadata.mode.to_u16()` checks that the mode scalar is two bytes wide, not its range, and on macOS `mode_t` is `u16`, so that check never fails there. The model's rule that a mode outside `u16` aborts as unsupported stands in for it. The same holds for Stat.MacosLstat and Stat.MacosFstat.
- Guest memory is a flat byte sequence. `Machine.Accessible` is a bounds check that accepts a zero-length access anywhere, null included, and `Machine.ReadBytes` cannot fail. So reading uninitialised or pointer-carrying guest bytes, which `read_bytes` rejects, is not modelled.
- Stat.Statx: the unsupported-addressing equivalence is stated only for well-formed statx constants. For other constants, a field that fails its width check also aborts as unsupported.
- OpenFlags.DecodeOpenFlags: the source's error message for rejected flags (`flag & !mirror`) is kept as the set of offending bits, not as formatted text.
- Host calls themselves (opening, reading, writing, seeking, syncing, cloning files, metadata, rename, remove, symlink) are parameters, not models of a file system.

## Findings

| source | as written | input that shows it | evidently intended | confidence | as-written member | corrected member |
|---|---|---|---|---|---|---|
| src/shims/fs.rs:55-59 | When the scan finds no gap at or above `max(min_fd, 3)`, the fallback is one past the largest key of the whole table, which can lie below `min_fd` | table {3}, `min_fd` = 10 (e.g. `fcntl(3, F_DUPFD, 10)`): returns 4 | the lowest unused descriptor at or above `max(min_fd, 3)`, as the comment at lines 37-40 says: 10 | high; not executed | FdTable.InsertWithMinFdUndershoots | FdTable.InsertFdLowest |

=== FILE: common.dfy ===
/** Values shared by every part of the file-system shim model: optional values,
    host I/O outcomes, the interpreter's fatal errors and machine integer bounds. */
module Common {

  datatype Option<+T> = None | Some(value: T)

  /** The outcome of a host call (`std::io::Result`). A failure carries the
      guest errno that the host error translates to. */
  datatype Io<+T> = Success(value: T) | Failure(errno: int)

  /** The errors that abort the whole interpretation (`InterpResult::Err`). */
  datatype Fatal =
    | Unsupported       // a flag, command, addressing mode or platform the shim does not model
    | InvalidMemory     // a guest buffer that is not entirely accessible
    | TimeBeforeEpoch   // a host timestamp the guest representation cannot express

  /** A computation of the interpreter that does not touch the machine state. */
  datatype Interp<+T> = Fault(why: Fatal) | Value(value: T)

  /** An opaque host file resource. */
  type FileId = nat

  const I32Min: int := -0x8000_0000
  const I32Max: int := 0x7fff_ffff
  const I64Min: int := -0x8000_0000_0000_0000
  const I64Max: int := 0x7fff_ffff_ffff_ffff
  const U64Modulus: int := 0x1_0000_0000_0000_0000
  const U32Modulus: int := 0x1_0000_0000

  type u64 = x: int | 0 <= x < U64Modulus

  predicate IsI32(x: int) { I32Min <= x <= I32Max }

  predicate IsI64(x: int) { I64Min <= x <= I64Max }

  /** `x as u64` for an `i64` (two's-complement reinterpretation). */
  function I64AsU64(x: int): (r: u64)
    requires IsI64(x)
    ensures r % U64Modulus == x % U64Modulus
    ensures x >= 0 <==> r <= I64Max
  {
    if x < 0 then x + U64Modulus else x
  }

  /** `x as i64` for a `u64` (two's-complement reinterpretation). */
  function U64AsI64(x: u64): (r: int)
    ensures IsI64(r)
    ensures r % U64Modulus == x % U64Modulus
    ensures r >= 0 <==> x <= I64Max
  {
    if x > I64Max then x - U64Modulus else x
  }

  /** The two reinterpretations undo each other, so an `lseek` offset survives
      the round trip through `SeekFrom::Start`. */
  lemma I64U64RoundTrip(x: int)
    requires IsI64(x)
    ensures U64AsI64(I64AsU64(x)) == x
  {
  }

  function Min(a: int, b: int): (m: int)
    ensures m <= a && m <= b
    ensures m == a || m == b
  {
    if a <= b then a else b
  }

  function Max(a: int, b: int): (m: int)
    ensures a <= m && b <= m
    ensures m == a || m == b
  {
    if a >= b then a else b
  }
}

=== FILE: dispatch.dfy ===
/** The descriptor-based shims: `open`, `fcntl`, `close`, `read`, `write`,
    `lseek64`, and the path-only shims `unlink`, `symlink` and `rename`.

    Every shim first passes the isolation gate: with isolation on it aborts
    before touching anything. Host calls are parameters: a function from what
    the shim hands the host to the host's outcome. The value a shim returns to
    the guest is `-1` on failure, with the errno left in the last-error slot. */
module Dispatch {
  import opened Common
  import opened FdTable
  import opened Platform
  import opened Machine
  import opened OpenFlags

  /** The options an accepted `flags` word hands the host. */
  lemma DecodedRequest(c: Consts, flag: Bits)
    requires DecodeOpenFlags(c, flag).Accepted?
    ensures DecodeOpenFlags(c, flag).options == OptionsFor(RequestOf(c, flag))
    ensures DecodeOpenFlags(c, flag).writable <==> RequestOf(c, flag).access != ReadOnly
  {
  }

  /** `open(path, flags)`. The host opens the file with the decoded options; on
      success the file gets the least free descriptor at or above 3, writable
      unless the access mode is read-only. A word the decoder rejects aborts. */
  function Open(cfg: Config, st: State, flag: Bits, hostOpen: OpenOptions -> Io<FileId>): (r: Eval<int>)
    requires ValidState(st)
    requires Room(st.fds, 0)
    ensures cfg.isolated ==> r == Abort(Unsupported)
    ensures !cfg.isolated ==> (r.Abort? <==> !Acceptable(cfg.consts, flag))
    ensures r.Abort? ==> r.why == Unsupported
    ensures r.Done? ==> ValidState(r.st) && r.st.mem == st.mem
    ensures r.Done? ==>
      var req := RequestOf(cfg.consts, flag);
      match hostOpen(OptionsFor(req))
      case Failure(e) => r.value == -1 && r.st.lastError == e && r.st.fds == st.fds
      case Success(file) =>
        && r.st.lastError == st.lastError
        && LeastFreeFrom(View(st.fds).Keys, MinNormalFileFd, r.value)
        && View(r.st.fds) == View(st.fds)[r.value := FileHandle(file, req.access != ReadOnly)]
  {
    if cfg.isolated then Abort(Unsupported)
    else
      DecodeAcceptsIff(cfg.consts, flag);
      match DecodeOpenFlags(cfg.consts, flag)
      case Accepted(options, writable) =>
        DecodedRequest(cfg.consts, flag);
        (match hostOpen(options)
         case Failure(e) => Done(SetLastError(st, e), -1)
         case Success(file) =>
           var ins := InsertFd(st.fds, FileHandle(file, writable));
           Done(st.(fds := ins.table), ins.fd))
      case _ => Abort(Unsupported)
  }

  /** `fcntl(fd, cmd, start)`. F_GETFD reports FD_CLOEXEC for an open descriptor;
      F_DUPFD and F_DUPFD_CLOEXEC clone the host file and give the clone the
      descriptor `insert_fd_with_min_fd` chooses for `start`, with the original's
      writability: the least free one at or above `max(start, 3)` when some key
      reaches that floor or the table is empty, and otherwise one past the largest
      key, which lies below `start` (see `FdTable.InsertWithMinFdUndershoots`).
      Duplicating 0, 1 or 2, a missing `start` and any other command abort. */
  function Fcntl(cfg: Config, st: State, fd: int, cmd: int, start: Option<int>,
                 cloneFile: FileId -> Io<FileId>): (r: Eval<int>)
    requires ValidState(st)
    requires start.Some? ==> IsI32(start.value) && Room(st.fds, start.value)
    ensures cfg.isolated ==> r == Abort(Unsupported)
    ensures r.Abort? ==> r.why == Unsupported
    ensures r.Done? ==> ValidState(r.st) && r.st.mem == st.mem
    ensures !cfg.isolated && cmd == cfg.consts.fGetfd ==>
      if fd in View(st.fds) then r == Done(st, cfg.consts.fdCloexec)
      else r == Done(st.(lastError := cfg.consts.eBadf), -1)
    ensures !cfg.isolated && cmd != cfg.consts.fGetfd && IsDup(cfg.consts, cmd) ==>
      (r.Abort? <==> fd < MinNormalFileFd || start.None?)
    ensures !cfg.isolated && cmd != cfg.consts.fGetfd && !IsDup(cfg.consts, cmd) ==> r == Abort(Unsupported)
    ensures r.Done? && IsDup(cfg.consts, cmd) && cmd != cfg.consts.fGetfd ==>
      if fd !in View(st.fds) then r.value == -1 && r.st == st.(lastError := cfg.consts.eBadf)
      else match cloneFile(View(st.fds)[fd].file)
        case Failure(e) => r.value == -1 && r.st == st.(lastError := e)
        case Success(copy) =>
          && r.value !in View(st.fds)
          && (EmptyOrReaches(st.fds, Max(start.value, MinNormalFileFd)) ==>
                LeastFreeFrom(View(st.fds).Keys, Max(start.value, MinNormalFileFd), r.value))
          && (!EmptyOrReaches(st.fds, Max(start.value, MinNormalFileFd)) ==>
                r.value - 1 in View(st.fds) && forall k :: k in View(st.fds) ==> k < r.value)
          && View(r.st.fds) == View(st.fds)[r.value := FileHandle(copy, View(st.fds)[fd].writable)]
          && r.st.lastError == st.lastError
  {
    var c := cfg.consts;
    if cfg.isolated then Abort(Unsupported)
    else if cmd == c.fGetfd then
      if fd in View(st.fds) then Done(st, c.fdCloexec) else HandleNotFound(c, st)
    else if IsDup(c, cmd) then
      if fd < MinNormalFileFd then Abort(Unsupported)
      else if start.None? then Abort(Unsupported)
      else
        match Get(st.fds, fd)
        case None => HandleNotFound(c, st)
        case Some(h) =>
          match cloneFile(h.file)
          case Failure(e) => Done(SetLastError(st, e), -1)
          case Success(copy) =>
            var ins := InsertFdWithMinFd(st.fds, FileHandle(copy, h.writable), start.value);
            Done(st.(fds := ins.table), ins.fd)
    else Abort(Unsupported)
  }

  /** F_DUPFD or F_DUPFD_CLOEXEC: the two share one implementation, since every
      descriptor is taken to have FD_CLOEXEC set. */
  predicate IsDup(c: Consts, cmd: int) {
    cmd == c.fDupfd || cmd == c.fDupfdCloexec
  }

  /** `close(fd)`. The descriptor is released whether or not the host reports
      an error. A writable file is synced first and the sync's failure is
      reported; a read-only file is dropped and its errors ignored. */
  function Close(cfg: Config, st: State, fd: int, sync: FileId -> Io<()>): (r: Eval<int>)
    requires ValidState(st)
    ensures cfg.isolated ==> r == Abort(Unsupported)
    ensures !cfg.isolated ==> r.Done?
    ensures r.Done? ==> ValidState(r.st) && r.st.mem == st.mem
    ensures r.Done? ==> View(r.st.fds) == View(st.fds) - {fd}
    ensures r.Done? && fd !in View(st.fds) ==> r.value == -1 && r.st.lastError == cfg.consts.eBadf
    ensures r.Done? && fd in View(st.fds) && !View(st.fds)[fd].writable ==>
      r.value == 0 && r.st.lastError == st.lastError
    ensures r.Done? && fd in View(st.fds) && View(st.fds)[fd].writable ==>
      match sync(View(st.fds)[fd].file)
      case Success(_) => r.value == 0 && r.st.lastError == st.lastError
      case Failure(e) => r.value == -1 && r.st.lastError == e
  {
    if cfg.isolated then Abort(Unsupported)
    else
      match Get(st.fds, fd)
      case None => HandleNotFound(cfg.consts, st)
      case Some(h) =>
        var st' := st.(fds := Remove(st.fds, fd));
        if h.writable then
          match sync(h.file)
          case Success(_) => TryUnwrapIoResult(st', Success(0))
          case Failure(e) => TryUnwrapIoResult(st', Failure(e))
        else Done(st', 0)
  }

  /** The byte count `read` and `write` pass to the host: the guest's count, capped
      to fit both the target's and the host's `isize`. */
  function IoCap(cfg: Config, count: nat): (n: nat)
    requires WellFormed(cfg)
    ensures n <= count
    ensures n <= IsizeMax(cfg.ptrWidth) && n <= IsizeMax(cfg.hostPtrWidth)
    ensures n == count || n == IsizeMax(cfg.ptrWidth) || n == IsizeMax(cfg.hostPtrWidth)
  {
    Min(count, Min(IsizeMax(cfg.ptrWidth), IsizeMax(cfg.hostPtrWidth)))
  }

  function Zeros(n: nat): (z: seq<bv8>)
    ensures |z| == n
    ensures forall i :: 0 <= i < n ==> z[i] == 0
  {
    seq(n, _ => 0)
  }

  /** A host `read` never delivers more bytes than it was asked for. */
  ghost predicate ReadsWithin(hostRead: (FileId, nat) -> Io<seq<bv8>>) {
    forall file, n :: hostRead(file, n).Success? ==> |hostRead(file, n).value| <= n
  }

  /** `read(fd, buf, count)`. The whole guest buffer must be accessible, else the
      call aborts before the descriptor is looked up. The host reads into a zeroed
      buffer of the capped length, and on success that whole buffer (the bytes
      read, then zeros) is copied to guest memory and the number of bytes read is
      returned; on failure guest memory is untouched. */
  function Read(cfg: Config, st: State, fd: int, buf: int, count: nat,
                hostRead: (FileId, nat) -> Io<seq<bv8>>): (r: Eval<int>)
    requires WellFormed(cfg) && ValidState(st)
    requires ReadsWithin(hostRead)
    ensures cfg.isolated ==> r == Abort(Unsupported)
    ensures !cfg.isolated ==> (r.Abort? <==> !Accessible(st.mem, buf, count))
    ensures !cfg.isolated ==> (r == Abort(InvalidMemory) <==> !Accessible(st.mem, buf, count))
    ensures r.Abort? ==> r.why == Unsupported || r.why == InvalidMemory
    ensures r.Done? ==> r.st.fds == st.fds && |r.st.mem| == |st.mem|
    ensures r.Done? && fd !in View(st.fds) ==> r.value == -1 && r.st == st.(lastError := cfg.consts.eBadf)
    ensures r.Done? && fd in View(st.fds) ==>
      match hostRead(View(st.fds)[fd].file, IoCap(cfg, count))
      case Failure(e) => r.value == -1 && r.st == st.(lastError := e)
      case Success(data) =>
        && r.value == |data|
        && r.st.lastError == st.lastError
        && Accessible(st.mem, buf, IoCap(cfg, count))
        && ReadBytes(r.st.mem, buf, IoCap(cfg, count)) == data + Zeros(IoCap(cfg, count) - |data|)
        && (forall i :: 0 <= i < |st.mem| && !(buf <= i < buf + IoCap(cfg, count)) ==> r.st.mem[i] == st.mem[i])
  {
    if cfg.isolated then Abort(Unsupported)
    else if !Accessible(st.mem, buf, count) then Abort(InvalidMemory)
    else
      var cap := IoCap(cfg, count);
      match Get(st.fds, fd)
      case None => HandleNotFound(cfg.consts, st)
      case Some(h) =>
        match hostRead(h.file, cap)
        case Failure(e) => Done(SetLastError(st, e), -1)
        case Success(data) =>
          var bytes := data + Zeros(cap - |data|);
          ReadAfterWrite(st.mem, buf, bytes);
          Done(st.(mem := WriteBytes(st.mem, buf, bytes)), |data|)
  }

  /** `write(fd, buf, count)`. The same buffer check and cap as `read`; the host
      receives exactly the first capped-count bytes of the buffer. Whether the
      descriptor was opened writable is left to the host. */
  function Write(cfg: Config, st: State, fd: int, buf: int, count: nat,
                 hostWrite: (FileId, seq<bv8>) -> Io<int>): (r: Eval<int>)
    requires WellFormed(cfg) && ValidState(st)
    ensures cfg.isolated ==> r == Abort(Unsupported)
    ensures !cfg.isolated ==> (r.Abort? <==> !Accessible(st.mem, buf, count))
    ensures !cfg.isolated ==> (r == Abort(InvalidMemory) <==> !Accessible(st.mem, buf, count))
    ensures r.Abort? ==> r.why == Unsupported || r.why == InvalidMemory
    ensures r.Done? ==> r.st.fds == st.fds && r.st.mem == st.mem
    ensures r.Done? && fd !in View(st.fds) ==> r.value == -1 && r.st.lastError == cfg.consts.eBadf
    ensures r.Done? && fd in View(st.fds) ==>
      Accessible(st.mem, buf, IoCap(cfg, count)) &&
      match hostWrite(View(st.fds)[fd].file, ReadBytes(st.mem, buf, IoCap(cfg, count)))
      case Failure(e) => r.value == -1 && r.st.lastError == e
      case Success(n) => r.value == n && r.st == st
  {
    if cfg.isolated then Abort(Unsupported)
    else if !Accessible(st.mem, buf, count) then Abort(InvalidMemory)
    else
      var cap := IoCap(cfg, count);
      match Get(st.fds, fd)
      case None => HandleNotFound(cfg.consts, st)
      case Some(h) => TryUnwrapIoResult(st, hostWrite(h.file, ReadBytes(st.mem, buf, cap)))
  }

  /** The origin and offset of a host seek (`std::io::SeekFrom`). */
  datatype SeekFrom = Start(pos: u64) | Current(delta: int) | End(delta: int)

  /** The `SeekFrom` a `whence` names, if any. SEEK_SET reinterprets the `i64`
      offset as a `u64`. */
  function SeekOrigin(c: Consts, offset: int, whence: int): (s: Option<SeekFrom>)
    requires IsI64(offset)
    ensures s.None? <==> whence != c.seekSet && whence != c.seekCur && whence != c.seekEnd
    ensures whence == c.seekSet ==> s == Some(Start(I64AsU64(offset)))
    ensures whence != c.seekSet && whence == c.seekCur ==> s == Some(Current(offset))
    ensures whence != c.seekSet && whence != c.seekCur && whence == c.seekEnd ==> s == Some(End(offset))
    ensures s.Some? && s.value.Start? ==> U64AsI64(s.value.pos) == offset
    ensures s.Some? && !s.value.Start? ==> s.value.delta == offset
  {
    if whence == c.seekSet then
      I64U64RoundTrip(offset);
      Some(Start(I64AsU64(offset)))
    else if whence == c.seekCur then Some(Current(offset))
    else if whence == c.seekEnd then Some(End(offset))
    else None
  }

  /** `lseek64(fd, offset, whence)`. An unknown `whence` fails with EINVAL before
      the descriptor is looked up. The new position the host reports is returned
      reinterpreted as an `i64`. */
  function Lseek64(cfg: Config, st: State, fd: int, offset: int, whence: int,
                   hostSeek: (FileId, SeekFrom) -> Io<u64>): (r: Eval<int>)
    requires ValidState(st)
    requires IsI64(offset)
    ensures cfg.isolated ==> r == Abort(Unsupported)
    ensures !cfg.isolated ==> r.Done?
    ensures r.Done? ==> r.st.fds == st.fds && r.st.mem == st.mem && IsI64(r.value)
    ensures r.Done? && SeekOrigin(cfg.consts, offset, whence).None? ==>
      r.value == -1 && r.st.lastError == cfg.consts.eInval
    ensures r.Done? && SeekOrigin(cfg.consts, offset, whence).Some? && fd !in View(st.fds) ==>
      r.value == -1 && r.st.lastError == cfg.consts.eBadf
    ensures r.Done? && SeekOrigin(cfg.consts, offset, whence).Some? && fd in View(st.fds) ==>
      match hostSeek(View(st.fds)[fd].file, SeekOrigin(cfg.consts, offset, whence).value)
      case Failure(e) => r.value == -1 && r.st.lastError == e
      case Success(pos) => r.value == U64AsI64(pos) && r.st == st
  {
    if cfg.isolated then Abort(Unsupported)
    else
      match SeekOrigin(cfg.consts, offset, whence)
      case None => Done(SetLastError(st, cfg.consts.eInval), -1)
      case Some(from) =>
        match Get(st.fds, fd)
        case None => HandleNotFound(cfg.consts, st)
        case Some(h) =>
          match hostSeek(h.file, from)
          case Failure(e) => Done(SetLastError(st, e), -1)
          case Success(pos) => TryUnwrapIoResult(st, Success(U64AsI64(pos)))
  }

  /** The `0`-or-`-1` reply of a path shim to a host outcome. */
  function UnitReply(st: State, res: Io<()>): (r: Eval<int>)
    ensures r.Done? && r.st.fds == st.fds && r.st.mem == st.mem
    ensures res.Success? ==> r.value == 0 && r.st == st
    ensures res.Failure? ==> r.value == -1 && r.st.lastError == res.errno
  {
    match res
    case Success(_) => TryUnwrapIoResult(st, Success(0))
    case Failure(e) => TryUnwrapIoResult(st, Failure(e))
  }

  /** `unlink(path)`: the host removes the file. */
  function Unlink(cfg: Config, st: State, path: string, removeFile: string -> Io<()>): (r: Eval<int>)
    ensures cfg.isolated ==> r == Abort(Unsupported)
    ensures !cfg.isolated ==> r.Done? && r.st.fds == st.fds && r.st.mem == st.mem
    ensures r.Done? ==> (r.value == 0 <==> removeFile(path).Success?)
    ensures r.Done? && removeFile(path).Failure? ==> r.value == -1 && r.st.lastError == removeFile(path).errno
  {
    if cfg.isolated then Abort(Unsupported) else UnitReply(st, removeFile(path))
  }

  /** `symlink(target, linkpath)`: the host creates a link at `linkpath`
      pointing to `target`. */
  function Symlink(cfg: Config, st: State, target: string, linkpath: string,
                   createLink: (string, string) -> Io<()>): (r: Eval<int>)
    ensures cfg.isolated ==> r == Abort(Unsupported)
    ensures !cfg.isolated ==> r.Done? && r.st.fds == st.fds && r.st.mem == st.mem
    ensures r.Done? ==> (r.value == 0 <==> createLink(target, linkpath).Success?)
    ensures r.Done? && createLink(target, linkpath).Failure? ==>
      r.value == -1 && r.st.lastError == createLink(target, linkpath).errno
  {
    if cfg.isolated then Abort(Unsupported) else UnitReply(st, createLink(target, linkpath))
  }

  /** `rename(oldpath, newpath)`. A null path pointer fails with EFAULT without
      reaching the host. `oldPath` and `newPath` are the strings the pointers
      lead to. */
  function Rename(cfg: Config, st: State, oldPtr: int, newPtr: int, oldPath: string, newPath: string,
                  hostRename: (string, string) -> Io<()>): (r: Eval<int>)
    ensures cfg.isolated ==> r == Abort(Unsupported)
    ensures !cfg.isolated ==> r.Done? && r.st.fds == st.fds && r.st.mem == st.mem
    ensures r.Done? && (IsNull(oldPtr) || IsNull(newPtr)) ==>
      r.value == -1 && r.st.lastError == cfg.consts.eFault
    ensures r.Done? && !IsNull(oldPtr) && !IsNull(newPtr) ==>
      (r.value == 0 <==> hostRename(oldPath, newPath).Success?)
    ensures r.Done? && !IsNull(oldPtr) && !IsNull(newPtr) && hostRename(oldPath, newPath).Failure? ==>
      r.value == -1 && r.st.lastError == hostRename(oldPath, newPath).errno
  {
    if cfg.isolated then Abort(Unsupported)
    else if IsNull(oldPtr) || IsNull(newPtr) then Done(SetLastError(st, cfg.consts.eFault), -1)
    else UnitReply(st, hostRename(oldPath, newPath))
  }
}

=== FILE: fd_table.dfy ===
/** The guest's file-descriptor table (`FileHandler`): an ordered map from
    `i32` descriptors to open host files, with 0, 1 and 2 reserved.

    The map is kept as a sequence of entries in strictly ascending key order,
    which is how the source's `BTreeMap` iterates; `View` is its meaning as a
    plain map. */
module FdTable {
  import opened Common

  /** Descriptors 0, 1 and 2 are stdin, stdout and stderr and never enter the table. */
  const MinNormalFileFd: int := 3

  /** An open host file and whether it was opened for writing. */
  datatype FileHandle = FileHandle(file: FileId, writable: bool)

  datatype Entry = Entry(fd: int, handle: FileHandle)

  datatype FileHandler = FileHandler(entries: seq<Entry>)

  /** The result of an allocation: the new table and the descriptor chosen. */
  datatype Inserted = Inserted(table: FileHandler, fd: int)

  const Empty: FileHandler := FileHandler([])

  predicate Ascending(es: seq<Entry>) {
    forall i, j :: 0 <= i < j < |es| ==> es[i].fd < es[j].fd
  }

  /** Every key of `es` lies in `lo..=hi`. */
  predicate Within(es: seq<Entry>, lo: int, hi: int) {
    forall i :: 0 <= i < |es| ==> lo <= es[i].fd <= hi
  }

  /** The table invariant: ordered, unique keys, every key a non-reserved `i32`. */
  predicate Valid(t: FileHandler) {
    Ascending(t.entries) && Within(t.entries, MinNormalFileFd, I32Max)
  }

  /** The entries as a map from descriptor to handle. */
  function Entries(es: seq<Entry>): map<int, FileHandle> {
    if es == [] then map[] else Entries(es[1..])[es[0].fd := es[0].handle]
  }

  function View(t: FileHandler): map<int, FileHandle> {
    Entries(t.entries)
  }

  /** `BTreeMap::get`. */
  function Get(t: FileHandler, fd: int): Option<FileHandle> {
    if fd in View(t) then Some(View(t)[fd]) else None
  }

  /** Every key of the map is the key of some entry. */
  lemma {:induction false} EntriesKeys(es: seq<Entry>, k: int)
    requires k in Entries(es)
    ensures exists i :: 0 <= i < |es| && es[i].fd == k
  {
    if es[0].fd != k {
      EntriesKeys(es[1..], k);
      var i :| 0 <= i < |es[1..]| && es[1..][i].fd == k;
      assert es[i + 1].fd == k;
    }
  }

  /** Every entry's key is a key of the map. */
  lemma {:induction false} EntryInEntries(es: seq<Entry>, i: int)
    requires 0 <= i < |es|
    ensures es[i].fd in Entries(es)
  {
    if i > 0 {
      EntryInEntries(es[1..], i - 1);
    }
  }

  /** Bounds on the entries carry over to the keys of the map. */
  lemma EntriesWithin(es: seq<Entry>, lo: int, hi: int)
    requires Within(es, lo, hi)
    ensures forall k :: k in Entries(es) ==> lo <= k <= hi
  {
    forall k | k in Entries(es) ensures lo <= k <= hi {
      EntriesKeys(es, k);
    }
  }

  /** Bounds on the keys of the map carry over to the entries. */
  lemma WithinEntries(es: seq<Entry>, lo: int, hi: int)
    requires forall k :: k in Entries(es) ==> lo <= k <= hi
    ensures Within(es, lo, hi)
  {
    forall i | 0 <= i < |es| ensures lo <= es[i].fd <= hi {
      EntryInEntries(es, i);
    }
  }

  /** A lower bound on the keys of the map carries over to the entries. */
  lemma KeysAbove(es: seq<Entry>, b: int)
    requires forall k :: k in Entries(es) ==> b < k
    ensures forall i :: 0 <= i < |es| ==> b < es[i].fd
  {
    forall i | 0 <= i < |es| ensures b < es[i].fd {
      EntryInEntries(es, i);
    }
  }

  /** In an ascending sequence the head's key is below every other key. */
  lemma HeadBelowRest(es: seq<Entry>)
    requires Ascending(es)
    requires es != []
    ensures forall k :: k in Entries(es[1..]) ==> es[0].fd < k
  {
    forall k | k in Entries(es[1..]) ensures es[0].fd < k {
      EntriesKeys(es[1..], k);
    }
  }

  /** `BTreeMap::insert` of a key that is not yet present. */
  function InsertSorted(es: seq<Entry>, e: Entry): (r: seq<Entry>)
    requires Ascending(es)
    requires e.fd !in Entries(es)
    ensures Ascending(r)
    ensures Entries(r) == Entries(es)[e.fd := e.handle]
  {
    if es == [] then [e]
    else if e.fd < es[0].fd then
      var r := [e] + es;
      assert r[1..] == es;
      r
    else
      var rest := InsertSorted(es[1..], e);
      var r := [es[0]] + rest;
      assert r[1..] == rest;
      HeadBelowRest(es);
      assert es[0].fd < e.fd;
      KeysAbove(rest, es[0].fd);
      r
  }

  /** `BTreeMap::remove`: the entry for `fd` is dropped, every other one kept. */
  function RemoveSorted(es: seq<Entry>, fd: int): (r: seq<Entry>)
    requires Ascending(es)
    ensures Ascending(r)
    ensures Entries(r) == Entries(es) - {fd}
  {
    if es == [] then []
    else
      HeadBelowRest(es);
      if es[0].fd == fd then
        es[1..]
      else
        var rest := RemoveSorted(es[1..], fd);
        var r := [es[0]] + rest;
        assert r[1..] == rest;
        KeysAbove(rest, es[0].fd);
        r
  }

  /** Removes `fd` from the table (the handle itself is looked up with `Get`). */
  function Remove(t: FileHandler, fd: int): (r: FileHandler)
    requires Valid(t)
    ensures Valid(r)
    ensures View(r) == View(t) - {fd}
  {
    var r := FileHandler(RemoveSorted(t.entries, fd));
    EntriesWithin(t.entries, MinNormalFileFd, I32Max);
    WithinEntries(r.entries, MinNormalFileFd, I32Max);
    r
  }

  /** Where `BTreeMap::range(lo..)` starts: the first position whose key is at
      least `lo` (in an ascending sequence every later key is too). */
  function RangeStart(es: seq<Entry>, lo: int): (n: nat)
    requires Ascending(es)
    ensures n <= |es|
    ensures forall i :: 0 <= i < n ==> es[i].fd < lo
    ensures forall i :: n <= i < |es| ==> lo <= es[i].fd
  {
    if es == [] || lo <= es[0].fd then 0
    else
      var n := RangeStart(es[1..], lo);
      assert forall i :: 1 <= i < |es| ==> es[i] == es[1..][i - 1];
      n + 1
  }

  /** `BTreeMap::range(lo..)`: the entries whose key is at least `lo`, in order. */
  function From(es: seq<Entry>, lo: int): (r: seq<Entry>)
    requires Ascending(es)
    ensures Ascending(r)
    ensures forall i :: 0 <= i < |r| ==> lo <= r[i].fd
  {
    es[RangeStart(es, lo)..]
  }

  /** The floor of an allocation: `max(min_fd, MIN_NORMAL_FILE_FD)`. */
  function Floor(minFd: int): (f: int)
    ensures f == Max(minFd, MinNormalFileFd)
  {
    if minFd < MinNormalFileFd then MinNormalFileFd else minFd
  }

  /** `fd` is the least integer at or above `floor` that is not a key. */
  ghost predicate LeastFreeFrom(keys: set<int>, floor: int, fd: int) {
    && floor <= fd
    && fd !in keys
    && forall c :: floor <= c < fd ==> c in keys
  }

  /** The least free descriptor is determined by the keys and the floor: a
      second candidate with the same property is the same descriptor. */
  lemma LeastFreeUnique(keys: set<int>, floor: int, fd: int, fd': int)
    requires LeastFreeFrom(keys, floor, fd) && LeastFreeFrom(keys, floor, fd')
    ensures fd == fd'
  {
  }

  /** The scan of `insert_fd_with_min_fd`: walk the keys at or above the floor in
      order beside a counter starting at the floor; the first key that differs
      from the counter reveals a gap at the counter. If there is none, the keys
      are exactly the counter values passed. */
  function FindGap(es: seq<Entry>, counter: int): (r: Option<int>)
    requires Ascending(es)
    requires forall i :: 0 <= i < |es| ==> counter <= es[i].fd
    ensures r.Some? ==> LeastFreeFrom(Entries(es).Keys, counter, r.value)
    ensures r.Some? ==> exists i :: 0 <= i < |es| && r.value < es[i].fd
    ensures r.None? ==> forall i :: 0 <= i < |es| ==> es[i].fd == counter + i
  {
    if es == [] then None
    else
      HeadBelowRest(es);
      if es[0].fd != counter then Some(counter)
      else
        var r := FindGap(es[1..], counter + 1);
        assert r.Some? ==> exists i :: 0 <= i < |es| && r.value < es[i].fd by {
          if r.Some? {
            var i :| 0 <= i < |es[1..]| && r.value < es[1..][i].fd;
            assert es[i + 1] == es[1..][i];
          }
        }
        assert r.None? ==> forall i :: 0 <= i < |es| ==> es[i].fd == counter + i by {
          if r.None? {
            forall i | 0 < i < |es| ensures es[i].fd == counter + i {
              assert es[i] == es[1..][i - 1];
            }
          }
        }
        r
  }

  /** Some key reaches the floor, or there are no keys at all: the cases in which
      the allocator returns the least free descriptor at or above the floor. */
  predicate EmptyOrReaches(t: FileHandler, floor: int) {
    t.entries == [] || exists i :: 0 <= i < |t.entries| && floor <= t.entries[i].fd
  }

  /** The allocation does not overflow `i32`: when `i32::MAX` is already taken,
      a descriptor between the floor and `i32::MAX` is still free. */
  predicate Room(t: FileHandler, minFd: int) {
    I32Max in View(t) ==> exists c :: Floor(minFd) <= c < I32Max && c !in View(t)
  }

  /** The descriptor `insert_fd_with_min_fd` chooses, as written: the first gap the
      scan finds, otherwise one past the largest key of the whole table, otherwise
      the floor. */
  function NextFd(t: FileHandler, minFd: int): int
    requires Ascending(t.entries)
  {
    var floor := Floor(minFd);
    match FindGap(From(t.entries, floor), floor)
    case Some(gap) => gap
    case None => if t.entries == [] then floor else t.entries[|t.entries| - 1].fd + 1
  }

  /** The keys of a suffix are keys of the whole sequence. */
  lemma SuffixKeys(es: seq<Entry>, n: nat)
    requires n <= |es|
    ensures Entries(es[n..]).Keys <= Entries(es).Keys
  {
    forall k | k in Entries(es[n..]) ensures k in Entries(es) {
      EntriesKeys(es[n..], k);
      var i :| 0 <= i < |es[n..]| && es[n..][i].fd == k;
      EntryInEntries(es, n + i);
    }
  }

  /** The last key of an ascending sequence is its largest. */
  lemma LastIsMax(es: seq<Entry>)
    requires Ascending(es)
    requires es != []
    ensures es[|es| - 1].fd in Entries(es)
    ensures forall k :: k in Entries(es) ==> k <= es[|es| - 1].fd
  {
    EntryInEntries(es, |es| - 1);
    forall k | k in Entries(es) ensures k <= es[|es| - 1].fd {
      EntriesKeys(es, k);
    }
  }

  /** Keys at or above the floor all sit in the suffix `From` returns. */
  lemma FromKeys(es: seq<Entry>, floor: int)
    requires Ascending(es)
    ensures forall k :: k in Entries(es) && floor <= k ==> k in Entries(From(es, floor))
  {
    var n := RangeStart(es, floor);
    forall k | k in Entries(es) && floor <= k ensures k in Entries(es[n..]) {
      EntriesKeys(es, k);
      var i :| 0 <= i < |es| && es[i].fd == k;
      assert es[n..][i - n] == es[i];
      EntryInEntries(es[n..], i - n);
    }
  }

  /** The scan found a gap: it is the least free descriptor at or above the floor. */
  lemma NextFdGap(t: FileHandler, minFd: int)
    requires Valid(t)
    requires FindGap(From(t.entries, Floor(minFd)), Floor(minFd)).Some?
    ensures EmptyOrReaches(t, Floor(minFd))
    ensures LeastFreeFrom(View(t).Keys, Floor(minFd), NextFd(t, minFd))
    ensures NextFd(t, minFd) <= I32Max
  {
    var es := t.entries;
    var floor := Floor(minFd);
    var n := RangeStart(es, floor);
    var suffix := es[n..];
    FromKeys(es, floor);
    SuffixKeys(es, n);
    var gap := FindGap(suffix, floor).value;
    var j :| 0 <= j < |suffix| && gap < suffix[j].fd;
    assert suffix[j] == es[n + j];
  }

  /** The scan ran out of keys at or above the floor, some of which exist: they are
      contiguous from the floor up to the last key, so one past it is least free. */
  lemma NextFdPastRun(t: FileHandler, minFd: int)
    requires Valid(t)
    requires Room(t, minFd)
    requires FindGap(From(t.entries, Floor(minFd)), Floor(minFd)).None?
    requires From(t.entries, Floor(minFd)) != []
    ensures EmptyOrReaches(t, Floor(minFd))
    ensures LeastFreeFrom(View(t).Keys, Floor(minFd), NextFd(t, minFd))
    ensures NextFd(t, minFd) <= I32Max
  {
    var es := t.entries;
    var floor := Floor(minFd);
    var n := RangeStart(es, floor);
    var suffix := es[n..];
    LastIsMax(es);
    var last := es[|es| - 1].fd;
    assert suffix[|suffix| - 1] == es[|es| - 1];
    assert NextFd(t, minFd) == last + 1;
    SuffixRun(es, n, floor);
    RunKeys(es, n, floor);
    assert last == floor + (|es| - 1 - n);
    if last == I32Max {
      assert false;
    }
  }

  /** A scan that finds no gap in a suffix means the suffix counts up from the floor. */
  lemma SuffixRun(es: seq<Entry>, n: nat, floor: int)
    requires Ascending(es) && n <= |es|
    requires forall i :: 0 <= i < |es[n..]| ==> floor <= es[n..][i].fd
    requires FindGap(es[n..], floor).None?
    ensures forall i :: n <= i < |es| ==> es[i].fd == floor + (i - n)
  {
    var suffix := es[n..];
    forall i | n <= i < |es| ensures es[i].fd == floor + (i - n) {
      assert es[i] == suffix[i - n];
    }
  }

  /** A run of consecutive keys from position `n` on puts every value of the run in the map. */
  lemma RunKeys(es: seq<Entry>, n: nat, floor: int)
    requires n <= |es|
    requires forall i :: n <= i < |es| ==> es[i].fd == floor + (i - n)
    ensures forall c :: floor <= c < floor + (|es| - n) ==> c in Entries(es)
  {
    forall c | floor <= c < floor + (|es| - n) ensures c in Entries(es) {
      EntryInEntries(es, n + (c - floor));
    }
  }

  /** Every key lies below the floor: the scan sees nothing and the allocator
      falls back to one past the largest key. */
  lemma NextFdBelowFloor(t: FileHandler, minFd: int)
    requires Valid(t)
    requires IsI32(minFd)
    requires t.entries != []
    requires From(t.entries, Floor(minFd)) == []
    ensures !EmptyOrReaches(t, Floor(minFd))
    ensures NextFd(t, minFd) - 1 in View(t)
    ensures forall k :: k in View(t) ==> k < NextFd(t, minFd)
    ensures NextFd(t, minFd) <= I32Max
  {
    LastIsMax(t.entries);
    assert RangeStart(t.entries, Floor(minFd)) == |t.entries|;
  }

  /** The facts about `NextFd` that the allocators' contracts rest on. */
  lemma NextFdFacts(t: FileHandler, minFd: int)
    requires Valid(t)
    requires IsI32(minFd)
    requires Room(t, minFd)
    ensures MinNormalFileFd <= NextFd(t, minFd) <= I32Max
    ensures NextFd(t, minFd) !in View(t)
    ensures EmptyOrReaches(t, Floor(minFd)) ==> LeastFreeFrom(View(t).Keys, Floor(minFd), NextFd(t, minFd))
    ensures !EmptyOrReaches(t, Floor(minFd)) ==>
      && NextFd(t, minFd) - 1 in View(t)
      && forall k :: k in View(t) ==> k < NextFd(t, minFd)
  {
    var floor := Floor(minFd);
    var suffix := From(t.entries, floor);
    EntriesWithin(t.entries, MinNormalFileFd, I32Max);
    if FindGap(suffix, floor).Some? {
      NextFdGap(t, minFd);
    } else if suffix != [] {
      NextFdPastRun(t, minFd);
    } else if t.entries != [] {
      NextFdBelowFloor(t, minFd);
    }
  }

  /** Places a fresh entry in the table. */
  function Insert(t: FileHandler, e: Entry): (r: Inserted)
    requires Valid(t)
    requires e.fd !in View(t)
    requires MinNormalFileFd <= e.fd <= I32Max
    ensures r.fd == e.fd
    ensures Valid(r.table)
    ensures View(r.table) == View(t)[e.fd := e.handle]
  {
    var es := InsertSorted(t.entries, e);
    EntriesWithin(t.entries, MinNormalFileFd, I32Max);
    WithinEntries(es, MinNormalFileFd, I32Max);
    Inserted(FileHandler(es), e.fd)
  }

  /** `FileHandler::insert_fd_with_min_fd`, as written. The new descriptor is fresh,
      the table gains exactly that entry, and the descriptor is the least free one at
      or above `max(min_fd, 3)` unless every key lies below that floor, in which case
      it is one past the largest key (and may lie below `min_fd`). */
  function InsertFdWithMinFd(t: FileHandler, h: FileHandle, minFd: int): (r: Inserted)
    requires Valid(t)
    requires IsI32(minFd)
    requires Room(t, minFd)
    ensures Valid(r.table)
    ensures r.fd !in View(t)
    ensures View(r.table) == View(t)[r.fd := h]
    ensures EmptyOrReaches(t, Floor(minFd)) ==> LeastFreeFrom(View(t).Keys, Floor(minFd), r.fd)
    ensures !EmptyOrReaches(t, Floor(minFd)) ==>
      && r.fd - 1 in View(t)
      && forall k :: k in View(t) ==> k < r.fd
  {
    NextFdFacts(t, minFd);
    Insert(t, Entry(NextFd(t, minFd), h))
  }

  /** `FileHandler::insert_fd`: with no minimum, the new descriptor is always the
      least free one at or above 3. */
  function InsertFd(t: FileHandler, h: FileHandle): (r: Inserted)
    requires Valid(t)
    requires Room(t, 0)
    ensures Valid(r.table)
    ensures View(r.table) == View(t)[r.fd := h]
    ensures LeastFreeFrom(View(t).Keys, MinNormalFileFd, r.fd)
  {
    assert EmptyOrReaches(t, Floor(0)) by {
      if t.entries != [] {
        assert MinNormalFileFd <= t.entries[0].fd;
      }
    }
    InsertFdWithMinFd(t, h, 0)
  }

  /** Removing the descriptor an allocation just returned gives back the
      original table. */
  lemma RemoveUndoesInsert(t: FileHandler, h: FileHandle, minFd: int)
    requires Valid(t)
    requires IsI32(minFd)
    requires Room(t, minFd)
    ensures View(Remove(InsertFdWithMinFd(t, h, minFd).table, InsertFdWithMinFd(t, h, minFd).fd)) == View(t)
  {
    var r := InsertFdWithMinFd(t, h, minFd);
    UpdateThenRemove(View(t), r.fd, h);
  }

  /** Taking a fresh key back out of an updated map gives the map back. */
  lemma UpdateThenRemove(m: map<int, FileHandle>, k: int, v: FileHandle)
    requires k !in m
    ensures m[k := v] - {k} == m
  {
    assert (m[k := v] - {k}).Keys == m.Keys;
  }

  /** The allocator as evidently intended: the fallback never goes below the floor. */
  function NextFdLowest(t: FileHandler, minFd: int): int
    requires Ascending(t.entries)
  {
    var floor := Floor(minFd);
    match FindGap(From(t.entries, floor), floor)
    case Some(gap) => gap
    case None => if t.entries == [] then floor else Max(t.entries[|t.entries| - 1].fd + 1, floor)
  }

  /** `insert_fd_with_min_fd` corrected so that the promise of its comment holds
      unconditionally: the result is the least free descriptor at or above
      `max(min_fd, 3)`. */
  function InsertFdLowest(t: FileHandler, h: FileHandle, minFd: int): (r: Inserted)
    requires Valid(t)
    requires IsI32(minFd)
    requires Room(t, minFd)
    ensures Valid(r.table)
    ensures View(r.table) == View(t)[r.fd := h]
    ensures LeastFreeFrom(View(t).Keys, Floor(minFd), r.fd)
  {
    NextFdFacts(t, minFd);
    var fd := NextFdLowest(t, minFd);
    assert fd == NextFd(t, minFd) || (fd == Floor(minFd) && forall k :: k in View(t) ==> k < fd);
    Insert(t, Entry(fd, h))
  }

  /** Where the as-written allocator keeps its promise, the corrected one agrees with it. */
  lemma LowestAgreesWhenReached(t: FileHandler, h: FileHandle, minFd: int)
    requires Valid(t)
    requires IsI32(minFd)
    requires Room(t, minFd)
    requires EmptyOrReaches(t, Floor(minFd))
    ensures InsertFdLowest(t, h, minFd) == InsertFdWithMinFd(t, h, minFd)
  {
    NextFdFacts(t, minFd);
  }

  /** The as-written allocator undershoots its minimum: with only descriptor 3 open,
      asking for a descriptor at or above 10 yields 4, where the corrected one
      yields 10. */
  lemma InsertWithMinFdUndershoots()
    ensures InsertFdWithMinFd(FileHandler([Entry(3, FileHandle(0, true))]), FileHandle(1, true), 10).fd == 4
    ensures InsertFdLowest(FileHandler([Entry(3, FileHandle(0, true))]), FileHandle(1, true), 10).fd == 10
  {
    var t := FileHandler([Entry(3, FileHandle(0, true))]);
    assert View(t) == map[3 := FileHandle(0, true)];
    assert From(t.entries, 10) == [];
  }
}

=== FILE: laws.dfy ===
/** How the descriptor shims compose: what one call leaves behind for the next. */
module Laws {
  import opened Common
  import opened FdTable
  import opened Platform
  import opened Machine
  import opened OpenFlags
  import opened Dispatch

  /** A successful `open` hands out a descriptor of at least 3; closing it
      leaves the table as it was before the open, and succeeds outright when
      the file was opened read-only. */
  lemma OpenThenClose(cfg: Config, st: State, flag: Bits, hostOpen: OpenOptions -> Io<FileId>,
                      sync: FileId -> Io<()>)
    requires ValidState(st) && Room(st.fds, 0)
    requires !cfg.isolated && Acceptable(cfg.consts, flag)
    requires hostOpen(OptionsFor(RequestOf(cfg.consts, flag))).Success?
    ensures Open(cfg, st, flag, hostOpen).Done?
    ensures Open(cfg, st, flag, hostOpen).value >= MinNormalFileFd
    ensures var o := Open(cfg, st, flag, hostOpen);
      RequestOf(cfg.consts, flag).access == ReadOnly ==> Close(cfg, o.st, o.value, sync).value == 0
    ensures var o := Open(cfg, st, flag, hostOpen);
      View(Close(cfg, o.st, o.value, sync).st.fds) == View(st.fds)
  {
    var o := Open(cfg, st, flag, hostOpen);
    var req := RequestOf(cfg.consts, flag);
    var file := hostOpen(OptionsFor(req)).value;
    UpdateThenRemove(View(st.fds), o.value, FileHandle(file, req.access != ReadOnly));
  }

  /** The second `close` of a descriptor fails with EBADF and changes no table. */
  lemma CloseTwice(cfg: Config, st: State, fd: int, sync: FileId -> Io<()>, sync': FileId -> Io<()>)
    requires ValidState(st) && !cfg.isolated
    ensures var first := Close(cfg, st, fd, sync);
      var second := Close(cfg, first.st, fd, sync');
      && second.Done? && second.value == -1 && second.st.lastError == cfg.consts.eBadf
      && View(second.st.fds) == View(first.st.fds)
  {
    var first := Close(cfg, st, fd, sync);
    assert View(first.st.fds) - {fd} == View(first.st.fds);
  }

  /** F_GETFD on a descriptor `open` just returned reports FD_CLOEXEC and changes
      nothing. */
  lemma GetfdAfterOpen(cfg: Config, st: State, flag: Bits, hostOpen: OpenOptions -> Io<FileId>,
                       cloneFile: FileId -> Io<FileId>)
    requires ValidState(st) && Room(st.fds, 0)
    requires !cfg.isolated && Acceptable(cfg.consts, flag)
    requires hostOpen(OptionsFor(RequestOf(cfg.consts, flag))).Success?
    ensures var o := Open(cfg, st, flag, hostOpen);
      o.Done? && Fcntl(cfg, o.st, o.value, cfg.consts.fGetfd, None, cloneFile) == Done(o.st, cfg.consts.fdCloexec)
  {
  }

  /** A duplicate made by F_DUPFD is a new descriptor of at least 3, and at or
      above `start` whenever some open descriptor reaches `max(start, 3)` (when
      none does it can lie below `start`; see `Scenarios.DupUndershootsStart`).
      Closing it leaves the table as it was before the duplication. */
  lemma DupThenClose(cfg: Config, st: State, fd: int, start: int,
                     cloneFile: FileId -> Io<FileId>, sync: FileId -> Io<()>)
    requires ValidState(st) && !cfg.isolated
    requires IsI32(start) && Room(st.fds, start)
    requires cfg.consts.fDupfd != cfg.consts.fGetfd
    requires MinNormalFileFd <= fd && fd in View(st.fds)
    requires cloneFile(View(st.fds)[fd].file).Success?
    ensures var d := Fcntl(cfg, st, fd, cfg.consts.fDupfd, Some(start), cloneFile);
      && d.Done? && d.value !in View(st.fds) && d.value != fd && d.value >= MinNormalFileFd
      && (EmptyOrReaches(st.fds, Max(start, MinNormalFileFd)) ==> d.value >= start)
      && View(d.st.fds)[d.value] == View(st.fds)[fd].(file := cloneFile(View(st.fds)[fd].file).value)
      && View(Close(cfg, d.st, d.value, sync).st.fds) == View(st.fds)
  {
    var d := Fcntl(cfg, st, fd, cfg.consts.fDupfd, Some(start), cloneFile);
    var h := View(st.fds)[fd];
    UpdateThenRemove(View(st.fds), d.value, FileHandle(cloneFile(h.file).value, h.writable));
  }

  /** Wherever some open descriptor reaches `max(start, 3)`, F_DUPFD chooses the
      same descriptor as the corrected allocator `FdTable.InsertFdLowest`; the two
      part only in the undershooting case. */
  lemma DupAgreesWithCorrected(cfg: Config, st: State, fd: int, start: int, cloneFile: FileId -> Io<FileId>)
    requires ValidState(st) && !cfg.isolated
    requires IsI32(start) && Room(st.fds, start)
    requires cfg.consts.fDupfd != cfg.consts.fGetfd
    requires MinNormalFileFd <= fd && fd in View(st.fds)
    requires cloneFile(View(st.fds)[fd].file).Success?
    requires EmptyOrReaches(st.fds, Max(start, MinNormalFileFd))
    ensures var h := View(st.fds)[fd];
      Fcntl(cfg, st, fd, cfg.consts.fDupfd, Some(start), cloneFile).value
        == InsertFdLowest(st.fds, h.(file := cloneFile(h.file).value), start).fd
  {
    var h := View(st.fds)[fd];
    LowestAgreesWhenReached(st.fds, h.(file := cloneFile(h.file).value), start);
  }

  /** `read` checks the buffer before the descriptor: an inaccessible buffer aborts
      even when the descriptor is unknown, and an unknown descriptor with a good
      buffer fails with EBADF and leaves memory alone. */
  lemma ReadChecksBufferFirst(cfg: Config, st: State, fd: int, buf: int, count: nat,
                              hostRead: (FileId, nat) -> Io<seq<bv8>>)
    requires WellFormed(cfg) && ValidState(st) && ReadsWithin(hostRead)
    requires !cfg.isolated && fd !in View(st.fds)
    ensures !Accessible(st.mem, buf, count) ==> Read(cfg, st, fd, buf, count, hostRead) == Abort(InvalidMemory)
    ensures Accessible(st.mem, buf, count) ==>
      Read(cfg, st, fd, buf, count, hostRead) == Done(st.(lastError := cfg.consts.eBadf), -1)
  {
  }

  /** `lseek64` checks `whence` before the descriptor: an unknown `whence` fails
      with EINVAL whatever the descriptor. */
  lemma LseekChecksWhenceFirst(cfg: Config, st: State, fd: int, offset: int, whence: int,
                               hostSeek: (FileId, SeekFrom) -> Io<u64>)
    requires ValidState(st) && IsI64(offset) && !cfg.isolated
    requires whence != cfg.consts.seekSet && whence != cfg.consts.seekCur && whence != cfg.consts.seekEnd
    ensures Lseek64(cfg, st, fd, offset, whence, hostSeek) == Done(st.(lastError := cfg.consts.eInval), -1)
  {
  }

  /** A SEEK_SET seek hands the host the offset unchanged in meaning: the `u64` it
      receives reads back as the guest's `i64`. */
  lemma SeekSetPreservesOffset(c: Consts, offset: int)
    requires IsI64(offset)
    ensures SeekOrigin(c, offset, c.seekSet).Some? && SeekOrigin(c, offset, c.seekSet).value.Start?
    ensures U64AsI64(SeekOrigin(c, offset, c.seekSet).value.pos) == offset
  {
  }
}

=== FILE: machine.dfy ===
/** The interpreter state the shims act on: the descriptor table, the guest's
    last OS error and the guest memory; and the shape of a shim's result. */
module Machine {
  import opened Common
  import opened FdTable
  import opened Platform

  /** Guest memory is one byte sequence addressed from 0; address 0 is the null
      pointer and is never dereferenceable. */
  datatype State = State(fds: FileHandler, lastError: int, mem: seq<bv8>)

  /** A shim either aborts the interpretation or finishes with a new state and a
      value returned to the guest. */
  datatype Eval<+T> = Abort(why: Fatal) | Done(st: State, value: T)

  predicate ValidState(st: State) {
    Valid(st.fds)
  }

  predicate IsNull(ptr: int) {
    ptr == 0
  }

  /** `check_ptr_access`: every byte of `ptr..ptr+len` lies in guest memory.
      A zero-length access is always allowed. */
  predicate Accessible(mem: seq<bv8>, ptr: int, len: nat) {
    len == 0 || (0 < ptr && ptr + len <= |mem|)
  }

  /** `read_bytes`: the `len` guest bytes at `ptr`. */
  function ReadBytes(mem: seq<bv8>, ptr: int, len: nat): (bytes: seq<bv8>)
    requires Accessible(mem, ptr, len)
    ensures |bytes| == len
    ensures forall i :: 0 <= i < len ==> bytes[i] == mem[ptr + i]
  {
    if len == 0 then [] else mem[ptr..ptr + len]
  }

  /** `write_bytes`: `bytes` land at `ptr`; every other byte keeps its value. */
  function WriteBytes(mem: seq<bv8>, ptr: int, bytes: seq<bv8>): (mem': seq<bv8>)
    requires Accessible(mem, ptr, |bytes|)
    ensures |mem'| == |mem|
    ensures forall i :: 0 <= i < |bytes| ==> mem'[ptr + i] == bytes[i]
    ensures forall i :: 0 <= i < |mem| && !(ptr <= i < ptr + |bytes|) ==> mem'[i] == mem[i]
  {
    if |bytes| == 0 then mem else mem[..ptr] + bytes + mem[ptr + |bytes|..]
  }

  /** Reading back what was just written gives the written bytes. */
  lemma ReadAfterWrite(mem: seq<bv8>, ptr: int, bytes: seq<bv8>)
    requires Accessible(mem, ptr, |bytes|)
    ensures ReadBytes(WriteBytes(mem, ptr, bytes), ptr, |bytes|) == bytes
  {
  }

  /** `set_last_error`. */
  function SetLastError(st: State, errno: int): (st': State)
    ensures st'.lastError == errno
    ensures st'.fds == st.fds && st'.mem == st.mem
  {
    st.(lastError := errno)
  }

  /** `handle_not_found`: the descriptor is not open. */
  function HandleNotFound(c: Consts, st: State): (r: Eval<int>)
    ensures r.Done? && r.value == -1
    ensures r.st.lastError == c.eBadf && r.st.fds == st.fds && r.st.mem == st.mem
  {
    Done(SetLastError(st, c.eBadf), -1)
  }

  /** `try_unwrap_io_result`: a host success is returned as is; a host failure
      sets the last error and returns `-1`. */
  function TryUnwrapIoResult(st: State, res: Io<int>): (r: Eval<int>)
    ensures r.Done? && r.st.fds == st.fds && r.st.mem == st.mem
    ensures res.Success? ==> r.value == res.value && r.st == st
    ensures res.Failure? ==> r.value == -1 && r.st.lastError == res.errno
  {
    match res
    case Success(v) => Done(st, v)
    case Failure(e) => Done(SetLastError(st, e), -1)
  }
}

=== FILE: metadata.dfy ===
/** `FileMetadata`: the part of a host file's metadata the `stat` shims report,
    gathered from a path or from an open descriptor. */
module Metadata {
  import opened Common
  import opened FdTable
  import opened Platform
  import opened Machine

  datatype FileKind = RegularFile | Directory | Symlink | OtherKind

  const NanosPerSecond: int := 1_000_000_000

  /** A host timestamp as seconds and nanoseconds since the Unix epoch; a time
      before the epoch has negative `secs`. */
  datatype SystemTime = SystemTime(secs: int, nanos: nat)

  predicate ValidTime(t: SystemTime) {
    t.nanos < NanosPerSecond && t.secs < U64Modulus
  }

  /** What the host reports about a file (`std::fs::Metadata`). Each timestamp
      may be unavailable on the host. */
  datatype HostMetadata = HostMetadata(
    kind: FileKind, len: u64,
    created: Io<SystemTime>, accessed: Io<SystemTime>, modified: Io<SystemTime>)

  predicate ValidHostMetadata(m: HostMetadata) {
    && (m.created.Success? ==> ValidTime(m.created.value))
    && (m.accessed.Success? ==> ValidTime(m.accessed.value))
    && (m.modified.Success? ==> ValidTime(m.modified.value))
  }

  /** Seconds (`u64`) and nanoseconds (`u32`) since the epoch. */
  datatype Timestamp = Timestamp(sec: u64, nsec: nat)

  datatype FileMetadata = FileMetadata(
    mode: int, size: u64,
    created: Option<Timestamp>, accessed: Option<Timestamp>, modified: Option<Timestamp>)

  /** The host calls the metadata shims make: metadata by path, following
      symbolic links or not, and metadata of an open file. */
  datatype MetadataHost = MetadataHost(
    byPath: (string, bool) -> Io<HostMetadata>,
    ofFile: FileId -> Io<HostMetadata>)

  ghost predicate ValidHost(host: MetadataHost) {
    && (forall p, follow :: host.byPath(p, follow).Success? ==> ValidHostMetadata(host.byPath(p, follow).value))
    && (forall f :: host.ofFile(f).Success? ==> ValidHostMetadata(host.ofFile(f).value))
  }

  /** `extract_sec_and_nsec`: an unavailable time becomes `None`; a time before
      the epoch aborts; otherwise the time's whole seconds and nanoseconds. */
  function ExtractSecAndNsec(time: Io<SystemTime>): (r: Interp<Option<Timestamp>>)
    requires time.Success? ==> ValidTime(time.value)
    ensures r.Fault? <==> time.Success? && time.value.secs < 0
    ensures r.Fault? ==> r.why == TimeBeforeEpoch
    ensures r.Value? ==> (r.value.None? <==> time.Failure?)
    ensures r.Value? && r.value.Some? ==>
      r.value.value.sec * NanosPerSecond + r.value.value.nsec == time.value.secs * NanosPerSecond + time.value.nanos
    ensures r.Value? && r.value.Some? ==> r.value.value.nsec < NanosPerSecond && r.value.value.nsec < U32Modulus
  {
    match time
    case Failure(_) => Value(None)
    case Success(t) =>
      if t.secs < 0 then Fault(TimeBeforeEpoch)
      else Value(Some(Timestamp(t.secs, t.nanos)))
  }

  /** The `S_IF*` constant `from_meta` picks: regular files and directories get
      their own, everything else is reported as a symbolic link. */
  function ModeOf(c: Consts, kind: FileKind): int {
    match kind
    case RegularFile => c.sIfreg
    case Directory => c.sIfdir
    case _ => c.sIflnk
  }

  /** The kind a mode names, the other way round. */
  function KindOfMode(c: Consts, mode: int): FileKind {
    if mode == c.sIfreg then RegularFile
    else if mode == c.sIfdir then Directory
    else Symlink
  }

  predicate DistinctModes(c: Consts) {
    c.sIfreg != c.sIfdir && c.sIfreg != c.sIflnk && c.sIfdir != c.sIflnk
  }

  /** With distinct constants the mode gives the kind back, except that every
      kind other than file and directory comes back as a symbolic link. */
  lemma ModeKindRoundTrip(c: Consts, kind: FileKind)
    requires DistinctModes(c)
    ensures KindOfMode(c, ModeOf(c, kind)) == (if kind == OtherKind then Symlink else kind)
  {
  }

  /** `FileMetadata::from_meta`. A host error sets the last error and yields
      `None`; the timestamps are converted created, accessed, modified, and the
      first one before the epoch aborts. */
  function FromMeta(c: Consts, st: State, meta: Io<HostMetadata>): (r: Eval<Option<FileMetadata>>)
    requires meta.Success? ==> ValidHostMetadata(meta.value)
    ensures r.Abort? <==> meta.Success? && BeforeEpoch(meta.value)
    ensures r.Abort? ==> r.why == TimeBeforeEpoch
    ensures r.Done? ==> r.st.fds == st.fds && r.st.mem == st.mem
    ensures r.Done? && meta.Failure? ==> r.value.None? && r.st.lastError == meta.errno
    ensures r.Done? && meta.Success? ==> r.st == st && r.value.Some? && Describes(c, r.value.value, meta.value)
  {
    match meta
    case Failure(e) => Done(SetLastError(st, e), None)
    case Success(m) =>
      match ExtractSecAndNsec(m.created)
      case Fault(why) => Abort(why)
      case Value(created) =>
        match ExtractSecAndNsec(m.accessed)
        case Fault(why) => Abort(why)
        case Value(accessed) =>
          match ExtractSecAndNsec(m.modified)
          case Fault(why) => Abort(why)
          case Value(modified) => Done(st, Some(FileMetadata(ModeOf(c, m.kind), m.len, created, accessed, modified)))
  }

  /** Some available timestamp lies before the epoch. */
  predicate BeforeEpoch(m: HostMetadata) {
    || (m.created.Success? && m.created.value.secs < 0)
    || (m.accessed.Success? && m.accessed.value.secs < 0)
    || (m.modified.Success? && m.modified.value.secs < 0)
  }

  /** A timestamp is present exactly when the host had it, and then stands for
      the same instant. */
  predicate SameTime(ts: Option<Timestamp>, t: Io<SystemTime>) {
    && (ts.Some? <==> t.Success?)
    && (ts.Some? ==> ts.value.sec == t.value.secs && ts.value.nsec == t.value.nanos)
  }

  /** `md` reports `m`: its kind's mode, its length and its three timestamps. */
  predicate Describes(c: Consts, md: FileMetadata, m: HostMetadata) {
    && md.mode == ModeOf(c, m.kind)
    && md.size == m.len
    && SameTime(md.created, m.created)
    && SameTime(md.accessed, m.accessed)
    && SameTime(md.modified, m.modified)
  }

  /** `FileMetadata::from_path`: `metadata` when following symbolic links,
      `symlink_metadata` otherwise. */
  function FromPath(c: Consts, st: State, host: MetadataHost, path: string, follow: bool): (r: Eval<Option<FileMetadata>>)
    requires ValidHost(host)
    ensures r.Abort? <==> host.byPath(path, follow).Success? && BeforeEpoch(host.byPath(path, follow).value)
    ensures r.Abort? ==> r.why == TimeBeforeEpoch
    ensures r.Done? ==> r.st.fds == st.fds && r.st.mem == st.mem
    ensures r.Done? ==> (r.value.Some? <==> host.byPath(path, follow).Success?)
    ensures r.Done? && host.byPath(path, follow).Failure? ==> r.st.lastError == host.byPath(path, follow).errno
    ensures r.Done? && r.value.Some? ==> Describes(c, r.value.value, host.byPath(path, follow).value)
  {
    FromMeta(c, st, host.byPath(path, follow))
  }

  /** `FileMetadata::from_fd`: an unknown descriptor sets EBADF and yields `None`. */
  function FromFd(c: Consts, st: State, host: MetadataHost, fd: int): (r: Eval<Option<FileMetadata>>)
    requires ValidHost(host)
    ensures r.Abort? <==>
      fd in View(st.fds) && host.ofFile(View(st.fds)[fd].file).Success?
      && BeforeEpoch(host.ofFile(View(st.fds)[fd].file).value)
    ensures r.Abort? ==> r.why == TimeBeforeEpoch
    ensures r.Done? ==> r.st.fds == st.fds && r.st.mem == st.mem
    ensures r.Done? && fd !in View(st.fds) ==> r.value.None? && r.st.lastError == c.eBadf
    ensures r.Done? && fd in View(st.fds) ==> (r.value.Some? <==> host.ofFile(View(st.fds)[fd].file).Success?)
    ensures r.Done? && fd in View(st.fds) && host.ofFile(View(st.fds)[fd].file).Failure? ==>
      r.st.lastError == host.ofFile(View(st.fds)[fd].file).errno
    ensures r.Done? && r.value.Some? ==>
      fd in View(st.fds) && Describes(c, r.value.value, host.ofFile(View(st.fds)[fd].file).value)
  {
    match Get(st.fds, fd)
    case None =>
      var nf := HandleNotFound(c, st);
      Done(nf.st, None)
    case Some(h) => FromMeta(c, st, host.ofFile(h.file))
  }
}

=== FILE: open_flags.dfy ===
/** Decoding the `flags` argument of `open` into host open options.

    The access mode sits in the low two bits. Every further bit must belong to
    one of O_APPEND, O_TRUNC, O_CREAT or O_CLOEXEC: the decoder rebuilds a
    "mirror" of `flags` from the access mode and the recognised options it saw,
    and rejects `flags` unless the mirror reproduces it exactly. */
module OpenFlags {
  import opened Platform

  /** The options handed to the host's `OpenOptions`. */
  datatype OpenOptions = OpenOptions(read: bool, write: bool, append: bool, truncate: bool, create: bool)

  datatype Decoded =
    | UnsupportedAccessConstants          // the platform's access modes use more than two bits
    | UnsupportedAccessMode(mode: Bits)   // the low two bits name no access mode
    | UnsupportedFlags(bits: Bits)        // `flags & !mirror`: bits the shim does not model
    | Accepted(options: OpenOptions, writable: bool)

  /** `0b11`. */
  const AccessMask: Bits := {0, 1}

  predicate AccessConstantsFit(c: Consts) {
    (c.oRdonly + c.oWronly + c.oRdwr) - AccessMask == {}
  }

  predicate KnownAccessMode(c: Consts, flag: Bits) {
    var mode := flag * AccessMask;
    mode == c.oRdonly || mode == c.oWronly || mode == c.oRdwr
  }

  /** The contribution of one option to the mirror. */
  function Sel(flag: Bits, bits: Bits): Bits {
    if flag * bits != {} then bits else {}
  }

  /** The mirror: the access bits of `flag`, plus each recognised option (O_APPEND,
      O_TRUNC, O_CREAT, O_CLOEXEC) whose bits `flag` touches. */
  function MirrorOf(flag: Bits, a: Bits, t: Bits, k: Bits, x: Bits): Bits {
    (flag * AccessMask) + Sel(flag, a) + Sel(flag, t) + Sel(flag, k) + Sel(flag, x)
  }

  function DecodeOpenFlags(c: Consts, flag: Bits): (r: Decoded)
    ensures !AccessConstantsFit(c) ==> r == UnsupportedAccessConstants
    ensures AccessConstantsFit(c) && !KnownAccessMode(c, flag) ==> r == UnsupportedAccessMode(flag * AccessMask)
    ensures r.UnsupportedFlags? ==> r.bits * AccessMask == {}
    ensures r.Accepted? ==> AccessConstantsFit(c) && KnownAccessMode(c, flag)
    ensures r.Accepted? ==> (r.writable <==> flag * AccessMask != c.oRdonly)
    ensures r.Accepted? ==> (r.options.write <==> r.writable)
    ensures r.Accepted? ==> (r.options.read <==> flag * AccessMask != c.oWronly || flag * AccessMask == c.oRdonly)
    ensures r.Accepted? ==>
      && (r.options.append <==> flag * c.oAppend != {})
      && (r.options.truncate <==> flag * c.oTrunc != {})
      && (r.options.create <==> flag * c.oCreat != {})
  {
    if !AccessConstantsFit(c) then UnsupportedAccessConstants
    else
      var mode := flag * AccessMask;
      if !(mode == c.oRdonly || mode == c.oWronly || mode == c.oRdwr) then UnsupportedAccessMode(mode)
      else
        var writable := mode != c.oRdonly;
        var read := mode == c.oRdonly || mode != c.oWronly;
        var append := flag * c.oAppend != {};
        var truncate := flag * c.oTrunc != {};
        var create := flag * c.oCreat != {};
        var mirror := MirrorOf(flag, c.oAppend, c.oTrunc, c.oCreat, c.oCloexec);
        if flag != mirror then
          MirrorHoldsAccess(flag, c.oAppend, c.oTrunc, c.oCreat, c.oCloexec);
          UnsupportedFlags(flag - mirror)
        else Accepted(OpenOptions(read, writable, append, truncate, create), writable)
  }

  /** The mirror keeps every access bit of the flag. */
  lemma MirrorHoldsAccess(flag: Bits, a: Bits, t: Bits, k: Bits, x: Bits)
    ensures flag * AccessMask <= MirrorOf(flag, a, t, k, x)
  {
  }

  /** Every bit of `flag` lies in the access bits or one of the recognised options. */
  predicate OnlyKnownBits(c: Consts, flag: Bits) {
    flag <= AccessMask + c.oAppend + c.oTrunc + c.oCreat + c.oCloexec
  }

  /** `flag` carries all of `bits` or none of them. */
  predicate AllOrNothing(flag: Bits, bits: Bits) {
    flag * bits == {} || bits <= flag
  }

  /** Which `flags` words `open` accepts, stated without the mirror: the access
      constants fit two bits, the low two bits name an access mode, no unknown bit
      is set, and each recognised option is present whole or not at all. */
  predicate Acceptable(c: Consts, flag: Bits) {
    && AccessConstantsFit(c)
    && KnownAccessMode(c, flag)
    && OnlyKnownBits(c, flag)
    && AllOrNothing(flag, c.oAppend)
    && AllOrNothing(flag, c.oTrunc)
    && AllOrNothing(flag, c.oCreat)
    && AllOrNothing(flag, c.oCloexec)
  }

  /** The mirror test accepts exactly the `Acceptable` words. */
  lemma DecodeAcceptsIff(c: Consts, flag: Bits)
    ensures DecodeOpenFlags(c, flag).Accepted? <==> Acceptable(c, flag)
  {
    MirrorMatches(flag, c.oAppend, c.oTrunc, c.oCreat, c.oCloexec);
  }

  /** The set-level core of `DecodeAcceptsIff`. */
  lemma {:induction false} MirrorMatches(flag: Bits, a: Bits, t: Bits, k: Bits, x: Bits)
    ensures flag == MirrorOf(flag, a, t, k, x) <==>
      && flag <= AccessMask + a + t + k + x
      && AllOrNothing(flag, a) && AllOrNothing(flag, t)
      && AllOrNothing(flag, k) && AllOrNothing(flag, x)
  {
    var m := MirrorOf(flag, a, t, k, x);
    SelWithin(flag, a);
    SelWithin(flag, t);
    SelWithin(flag, k);
    SelWithin(flag, x);
    if flag == m {
      SelInMirror(flag, a, t, k, x);
      SelWhole(flag, a, m);
      SelWhole(flag, t, m);
      SelWhole(flag, k, m);
      SelWhole(flag, x, m);
    }
    if && flag <= AccessMask + a + t + k + x
       && AllOrNothing(flag, a) && AllOrNothing(flag, t)
       && AllOrNothing(flag, k) && AllOrNothing(flag, x)
    {
      forall i | i in flag ensures i in m {
        SelCovers(flag, a, i);
        SelCovers(flag, t, i);
        SelCovers(flag, k, i);
        SelCovers(flag, x, i);
      }
    }
  }

  /** An option's share of the mirror lies within the option and, when the option
      is whole in the flag, within the flag. */
  lemma SelWithin(flag: Bits, bits: Bits)
    ensures Sel(flag, bits) <= bits
    ensures AllOrNothing(flag, bits) ==> Sel(flag, bits) <= flag
  {
  }

  lemma SelInMirror(flag: Bits, a: Bits, t: Bits, k: Bits, x: Bits)
    ensures Sel(flag, a) <= MirrorOf(flag, a, t, k, x)
    ensures Sel(flag, t) <= MirrorOf(flag, a, t, k, x)
    ensures Sel(flag, k) <= MirrorOf(flag, a, t, k, x)
    ensures Sel(flag, x) <= MirrorOf(flag, a, t, k, x)
  {
  }

  /** An option whose share lies within the flag is whole in it. */
  lemma SelWhole(flag: Bits, bits: Bits, m: Bits)
    requires Sel(flag, bits) <= m && flag == m
    ensures AllOrNothing(flag, bits)
  {
  }

  /** A bit of the flag inside an option is in that option's share. */
  lemma SelCovers(flag: Bits, bits: Bits, i: nat)
    requires i in flag
    ensures i in bits ==> i in Sel(flag, bits)
  {
  }

  /** What a C caller asks of `open`, before it is packed into a `flags` word. */
  datatype AccessMode = ReadOnly | WriteOnly | ReadWrite

  datatype OpenRequest = OpenRequest(access: AccessMode, append: bool, truncate: bool, create: bool, cloexec: bool)

  function AccessBits(c: Consts, m: AccessMode): Bits {
    match m
    case ReadOnly => c.oRdonly
    case WriteOnly => c.oWronly
    case ReadWrite => c.oRdwr
  }

  function Opt(on: bool, bits: Bits): Bits {
    if on then bits else {}
  }

  /** The `flags` word a caller builds: the access mode OR'd with the options. */
  function EncodeOpenFlags(c: Consts, req: OpenRequest): Bits {
    AccessBits(c, req.access)
      + Opt(req.append, c.oAppend) + Opt(req.truncate, c.oTrunc)
      + Opt(req.create, c.oCreat) + Opt(req.cloexec, c.oCloexec)
  }

  /** The host options a request means. */
  function OptionsFor(req: OpenRequest): OpenOptions {
    OpenOptions(req.access != WriteOnly, req.access != ReadOnly, req.append, req.truncate, req.create)
  }

  /** Constants that can be told apart: three distinct access modes within the low
      two bits, and four nonempty options outside them and apart from one another.
      Every platform the shim runs on has such constants. */
  predicate OpenConstsWellFormed(c: Consts) {
    && AccessConstantsFit(c)
    && c.oRdonly != c.oWronly && c.oRdonly != c.oRdwr && c.oWronly != c.oRdwr
    && c.oAppend != {} && c.oTrunc != {} && c.oCreat != {} && c.oCloexec != {}
    && c.oAppend * AccessMask == {} && c.oTrunc * AccessMask == {}
    && c.oCreat * AccessMask == {} && c.oCloexec * AccessMask == {}
    && c.oAppend * c.oTrunc == {} && c.oAppend * c.oCreat == {} && c.oAppend * c.oCloexec == {}
    && c.oTrunc * c.oCreat == {} && c.oTrunc * c.oCloexec == {} && c.oCreat * c.oCloexec == {}
  }

  /** Decoding undoes encoding: with well-formed constants every request is
      accepted, with its own options, writable exactly when it is not read-only. */
  lemma DecodeEncode(c: Consts, req: OpenRequest)
    requires OpenConstsWellFormed(c)
    ensures DecodeOpenFlags(c, EncodeOpenFlags(c, req)) == Accepted(OptionsFor(req), req.access != ReadOnly)
  {
    var flag := EncodeOpenFlags(c, req);
    EncodedAccess(c, req);
    EncodedAppend(c, req);
    EncodedTrunc(c, req);
    EncodedCreat(c, req);
    EncodedCloexec(c, req);
    assert flag == MirrorOf(flag, c.oAppend, c.oTrunc, c.oCreat, c.oCloexec);
  }

  /** Each option of an encoded word is seen exactly when the request asked for
      it, and its share of the mirror is what the request put in. */
  lemma EncodedAppend(c: Consts, req: OpenRequest)
    requires OpenConstsWellFormed(c)
    ensures EncodeOpenFlags(c, req) * c.oAppend != {} <==> req.append
    ensures Sel(EncodeOpenFlags(c, req), c.oAppend) == Opt(req.append, c.oAppend)
  {
    AccessApart(c, req.access, c.oAppend);
    OptApart(req.truncate, c.oTrunc, c.oAppend);
    OptApart(req.create, c.oCreat, c.oAppend);
    OptApart(req.cloexec, c.oCloexec, c.oAppend);
    Apart4(AccessBits(c, req.access), Opt(req.truncate, c.oTrunc), Opt(req.create, c.oCreat), Opt(req.cloexec, c.oCloexec), c.oAppend);
    EncodedOption(EncodeOpenFlags(c, req), req.append, c.oAppend, AccessBits(c, req.access) + Opt(req.truncate, c.oTrunc) + Opt(req.create, c.oCreat) + Opt(req.cloexec, c.oCloexec));
  }

  lemma EncodedTrunc(c: Consts, req: OpenRequest)
    requires OpenConstsWellFormed(c)
    ensures EncodeOpenFlags(c, req) * c.oTrunc != {} <==> req.truncate
    ensures Sel(EncodeOpenFlags(c, req), c.oTrunc) == Opt(req.truncate, c.oTrunc)
  {
    AccessApart(c, req.access, c.oTrunc);
    OptApart(req.append, c.oAppend, c.oTrunc);
    OptApart(req.create, c.oCreat, c.oTrunc);
    OptApart(req.cloexec, c.oCloexec, c.oTrunc);
    Apart4(AccessBits(c, req.access), Opt(req.append, c.oAppend), Opt(req.create, c.oCreat), Opt(req.cloexec, c.oCloexec), c.oTrunc);
    EncodedOption(EncodeOpenFlags(c, req), req.truncate, c.oTrunc, AccessBits(c, req.access) + Opt(req.append, c.oAppend) + Opt(req.create, c.oCreat) + Opt(req.cloexec, c.oCloexec));
  }

  lemma EncodedCreat(c: Consts, req: OpenRequest)
    requires OpenConstsWellFormed(c)
    ensures EncodeOpenFlags(c, req) * c.oCreat != {} <==> req.create
    ensures Sel(EncodeOpenFlags(c, req), c.oCreat) == Opt(req.create, c.oCreat)
  {
    AccessApart(c, req.access, c.oCreat);
    OptApart(req.append, c.oAppend, c.oCreat);
    OptApart(req.truncate, c.oTrunc, c.oCreat);
    OptApart(req.cloexec, c.oCloexec, c.oCreat);
    Apart4(AccessBits(c, req.access), Opt(req.append, c.oAppend), Opt(req.truncate, c.oTrunc), Opt(req.cloexec, c.oCloexec), c.oCreat);
    EncodedOption(EncodeOpenFlags(c, req), req.create, c.oCreat, AccessBits(c, req.access) + Opt(req.append, c.oAppend) + Opt(req.truncate, c.oTrunc) + Opt(req.cloexec, c.oCloexec));
  }

  lemma EncodedCloexec(c: Consts, req: OpenRequest)
    requires OpenConstsWellFormed(c)
    ensures EncodeOpenFlags(c, req) * c.oCloexec != {} <==> req.cloexec
    ensures Sel(EncodeOpenFlags(c, req), c.oCloexec) == Opt(req.cloexec, c.oCloexec)
  {
    AccessApart(c, req.access, c.oCloexec);
    OptApart(req.append, c.oAppend, c.oCloexec);
    OptApart(req.truncate, c.oTrunc, c.oCloexec);
    OptApart(req.create, c.oCreat, c.oCloexec);
    Apart4(AccessBits(c, req.access), Opt(req.append, c.oAppend), Opt(req.truncate, c.oTrunc), Opt(req.create, c.oCreat), c.oCloexec);
    EncodedOption(EncodeOpenFlags(c, req), req.cloexec, c.oCloexec, AccessBits(c, req.access) + Opt(req.append, c.oAppend) + Opt(req.truncate, c.oTrunc) + Opt(req.create, c.oCreat));
  }

  lemma AccessApart(c: Consts, m: AccessMode, bits: Bits)
    requires AccessConstantsFit(c) && bits * AccessMask == {}
    ensures AccessBits(c, m) * bits == {}
  {
    var p := AccessBits(c, m);
    forall i | i in p ensures i !in bits {
      assert i in c.oRdonly + c.oWronly + c.oRdwr;
      assert i in AccessMask;
    }
  }

  lemma OptApart(on: bool, bits: Bits, other: Bits)
    requires bits * other == {} || other * bits == {}
    ensures Opt(on, bits) * other == {}
  {
  }

  lemma Apart4(p: Bits, q: Bits, r: Bits, u: Bits, bits: Bits)
    requires p * bits == {} && q * bits == {} && r * bits == {} && u * bits == {}
    ensures (p + q + r + u) * bits == {}
  {
  }

  /** The low two bits of an encoded word are exactly its access mode. */
  lemma EncodedAccess(c: Consts, req: OpenRequest)
    requires OpenConstsWellFormed(c)
    ensures EncodeOpenFlags(c, req) * AccessMask == AccessBits(c, req.access)
  {
  }

  /** An option apart from the rest of a word is seen exactly when it was put in,
      and its share of the mirror is what was put in. */
  lemma EncodedOption(flag: Bits, on: bool, bits: Bits, rest: Bits)
    requires flag == Opt(on, bits) + rest
    requires bits != {} && bits * rest == {}
    ensures flag * bits != {} <==> on
    ensures Sel(flag, bits) == Opt(on, bits)
  {
  }

  /** The access mode the low two bits of a word name. */
  function AccessOf(c: Consts, mode: Bits): AccessMode {
    if mode == c.oRdonly then ReadOnly else if mode == c.oWronly then WriteOnly else ReadWrite
  }

  /** The request an accepted `flags` word stands for. */
  function RequestOf(c: Consts, flag: Bits): OpenRequest {
    OpenRequest(AccessOf(c, flag * AccessMask),
      flag * c.oAppend != {}, flag * c.oTrunc != {}, flag * c.oCreat != {}, flag * c.oCloexec != {})
  }

  /** Every accepted word is the encoding of a request: with `DecodeEncode`,
      accepted words and requests correspond one to one. */
  lemma AcceptedIsEncoded(c: Consts, flag: Bits)
    requires DecodeOpenFlags(c, flag).Accepted?
    ensures EncodeOpenFlags(c, RequestOf(c, flag)) == flag
  {
    assert flag == MirrorOf(flag, c.oAppend, c.oTrunc, c.oCreat, c.oCloexec);
  }
}

=== FILE: platform.dfy ===
/** The emulated target: its libc constants, the widths of the C types the
    `stat` structures use, and the interpreter's configuration. The source looks
    these up by name (`eval_libc`, `libc_ty_layout`) on every call; here they
    are one record, fixed for the run. */
module Platform {
  import opened Common

  datatype Os = Linux | MacOs | OtherOs

  /** A flag word (a C `int` or `unsigned` of flag bits) as the set of the
      positions of its one bits, 0 to 31: `a & b` is `a * b`, `a | b` is `a + b`,
      `a & !b` is `a - b`, and `a & b != 0` is `a * b != {}`. */
  type Bits = set<nat>

  /** The one bits of `n`, numbered from `from`. */
  function BitsOf(n: nat, from: nat): (b: Bits)
    ensures forall i :: i in b ==> from <= i
    decreases n
  {
    if n == 0 then {}
    else (if n % 2 == 1 then {from} else {}) + BitsOf(n / 2, from + 1)
  }

  /** The bit pattern of an `i32` (two's complement). */
  function I32AsBits(x: int): Bits
    requires IsI32(x)
  {
    BitsOf(if x < 0 then x + U32Modulus else x, 0)
  }

  /** The values of the libc names the shims use. Flag words are `Bits`; the
      rest are plain integers. */
  datatype Consts = Consts(
    oRdonly: Bits, oWronly: Bits, oRdwr: Bits,
    oAppend: Bits, oTrunc: Bits, oCreat: Bits, oCloexec: Bits,
    fGetfd: int, fDupfd: int, fDupfdCloexec: int, fdCloexec: int,
    seekSet: int, seekCur: int, seekEnd: int,
    eBadf: int, eInval: int, eFault: int,
    atFdcwd: int, atEmptyPath: Bits, atSymlinkNofollow: Bits,
    statxType: Bits, statxSize: Bits, statxAtime: Bits, statxBtime: Bits, statxMtime: Bits,
    sIfreg: int, sIfdir: int, sIflnk: int)

  /** Byte widths of the C types of the macOS `struct stat`. */
  datatype MacLayouts = MacLayouts(
    devT: nat, modeT: nat, nlinkT: nat, inoT: nat, uidT: nat, gidT: nat,
    timeT: nat, cLong: nat, offT: nat, blkcntT: nat, blksizeT: nat, uint32T: nat)

  /** `isolated` is the process-wide switch that forbids touching the host;
      `ptrWidth` and `hostPtrWidth` are the target's and the host's pointer widths
      in bits. */
  datatype Config = Config(
    isolated: bool,
    os: Os,
    ptrWidth: nat,
    hostPtrWidth: nat,
    consts: Consts,
    layouts: MacLayouts)

  predicate SupportedWidth(w: nat) {
    w == 16 || w == 32 || w == 64
  }

  /** The largest `isize` of a machine with the given pointer width. */
  function IsizeMax(w: nat): (m: nat)
    requires SupportedWidth(w)
    ensures w == 64 ==> m == 0x7fff_ffff_ffff_ffff
    ensures w == 32 ==> m == 0x7fff_ffff
    ensures w == 16 ==> m == 0x7fff
  {
    if w == 64 then 0x7fff_ffff_ffff_ffff
    else if w == 32 then 0x7fff_ffff
    else 0x7fff
  }

  predicate WellFormed(cfg: Config) {
    SupportedWidth(cfg.ptrWidth) && SupportedWidth(cfg.hostPtrWidth)
  }

  /** The file-type constants fit the 16-bit `mode` fields (the source treats any
      other value as a bug in libc). */
  predicate ModesFitU16(c: Consts) {
    && 0 <= c.sIfreg < 0x1_0000
    && 0 <= c.sIfdir < 0x1_0000
    && 0 <= c.sIflnk < 0x1_0000
  }
}

=== FILE: scenarios.dfy ===
/** Concrete runs on the targets the shims are written for: Linux on x86_64
    and macOS on x86_64, with their libc values. */
module Scenarios {
  import opened Common
  import opened FdTable
  import opened Platform
  import opened Machine
  import opened OpenFlags
  import opened Dispatch
  import opened Metadata
  import opened Stat

  /** The libc values of x86_64 Linux. Flag words are given by their one bits:
      O_APPEND is 0o2000 (bit 10), O_TRUNC 0o1000 (bit 9), O_CREAT 0o100 (bit 6),
      O_CLOEXEC 0o2000000 (bit 19), AT_EMPTY_PATH 0x1000 (bit 12),
      AT_SYMLINK_NOFOLLOW 0x100 (bit 8), STATX_TYPE 0x1, STATX_SIZE 0x200,
      STATX_ATIME 0x20, STATX_BTIME 0x800 and STATX_MTIME 0x40. */
  const LinuxConsts: Consts := Consts(
    oRdonly := {}, oWronly := {0}, oRdwr := {1},
    oAppend := {10}, oTrunc := {9}, oCreat := {6}, oCloexec := {19},
    fGetfd := 1, fDupfd := 0, fDupfdCloexec := 1030, fdCloexec := 1,
    seekSet := 0, seekCur := 1, seekEnd := 2,
    eBadf := 9, eInval := 22, eFault := 14,
    atFdcwd := -100, atEmptyPath := {12}, atSymlinkNofollow := {8},
    statxType := {0}, statxSize := {9}, statxAtime := {5}, statxBtime := {11}, statxMtime := {6},
    sIfreg := 0x8000, sIfdir := 0x4000, sIflnk := 0xa000)

  /** The C type widths of macOS on x86_64: `dev_t` 4, `mode_t` 2, `nlink_t` 2,
      `ino_t` 8, `uid_t` and `gid_t` 4, `time_t` and `long` 8, `off_t` and
      `blkcnt_t` 8, `blksize_t` 4, `uint32_t` 4. */
  const X86_64Layouts: MacLayouts := MacLayouts(4, 2, 2, 8, 4, 4, 8, 8, 8, 8, 4, 4)

  const Linux64: Config := Config(false, Linux, 64, 64, LinuxConsts, X86_64Layouts)

  /** The macOS configuration reuses the Linux constant record. Only the C type
      widths and the `S_IF*` file-type constants, which macOS shares, matter to
      the macOS lemma below; the open-flag bits and errno values of macOS differ
      and are not used with this configuration. */
  const MacOs64: Config := Config(false, MacOs, 64, 64, LinuxConsts, X86_64Layouts)

  /** The Linux values satisfy every assumption the proofs make about constants. */
  lemma LinuxConstsWellFormed()
    ensures OpenConstsWellFormed(LinuxConsts)
    ensures StatxConstsWellFormed(LinuxConsts)
    ensures ModesFitU16(LinuxConsts) && DistinctModes(LinuxConsts)
    ensures WellFormed(Linux64)
  {
  }

  /** `O_WRONLY | O_CREAT | O_TRUNC | O_CLOEXEC`, the word behind
      `File::create`, decodes to a writable create-and-truncate open. */
  lemma CreateFlagsDecode()
    ensures DecodeOpenFlags(LinuxConsts, {0, 6, 9, 19}) ==
      Accepted(OpenOptions(false, true, false, true, true), true)
  {
    LinuxConstsWellFormed();
    DecodeEncode(LinuxConsts, OpenRequest(WriteOnly, false, true, true, true));
    assert EncodeOpenFlags(LinuxConsts, OpenRequest(WriteOnly, false, true, true, true)) == {0, 6, 9, 19};
  }

  /** O_NONBLOCK (0o4000, bit 11) is not one of the flags the shim knows. */
  lemma UnknownFlagRejected()
    ensures DecodeOpenFlags(LinuxConsts, {11}) == UnsupportedFlags({11})
  {
  }

  /** Every host open in these runs succeeds with file 7. */
  function OpenSeven(o: OpenOptions): Io<FileId> { Success(7) }

  function SyncOk(f: FileId): Io<()> { Success(()) }

  /** Every open descriptor is below 100. */
  predicate Small(st: State) {
    forall k :: k in View(st.fds) ==> k < 100
  }

  /** An open on a table of small descriptors gets the least free one at or
      above 3. */
  method OpenStep(st: State, ghost fd: int) returns (o: Eval<int>)
    requires ValidState(st) && Small(st)
    requires LeastFreeFrom(View(st.fds).Keys, MinNormalFileFd, fd) && fd < 100
    ensures o.Done? && o.value == fd && ValidState(o.st) && Small(o.st)
    ensures View(o.st.fds) == View(st.fds)[fd := FileHandle(7, true)]
  {
    LinuxConstsWellFormed();
    o := Open(Linux64, st, {1}, OpenSeven);
    LeastFreeUnique(View(st.fds).Keys, MinNormalFileFd, o.value, fd);
  }

  /** Closing an open writable descriptor whose sync succeeds returns 0. */
  method CloseStep(st: State, fd: int) returns (cl: Eval<int>)
    requires ValidState(st) && Small(st)
    requires fd in View(st.fds) && View(st.fds)[fd].file == 7
    ensures cl.Done? && ValidState(cl.st) && Small(cl.st)
    ensures cl.value == 0 && View(cl.st.fds) == View(st.fds) - {fd}
  {
    cl := Close(Linux64, st, fd, SyncOk);
  }

  /** Opens on a fresh table hand out 3, 4 and 5; closing 4 succeeds, and the
      next open gets 4 again. */
  method OpenCloseRun() returns (got: seq<int>)
    ensures got == [3, 4, 5, 0, 4]
  {
    var h := FileHandle(7, true);
    var s0 := State(FileHandler([]), 0, []);
    var o1 := OpenStep(s0, 3);
    assert View(o1.st.fds) == map[3 := h];
    var o2 := OpenStep(o1.st, 4);
    assert View(o2.st.fds) == map[3 := h, 4 := h];
    var o3 := OpenStep(o2.st, 5);
    var cl := CloseStep(o3.st, 4);
    assert View(cl.st.fds) == map[3 := h, 5 := h];
    var o4 := OpenStep(cl.st, 4);
    got := [o1.value, o2.value, o3.value, cl.value, o4.value];
  }

  function CloneEight(f: FileId): Io<FileId> { Success(8) }

  /** `fcntl(3, F_DUPFD, 10)` with only descriptor 3 open returns 4: the allocator
      falls back to one past the largest key, below the requested minimum. */
  lemma DupUndershootsStart()
    ensures var st := State(FileHandler([Entry(3, FileHandle(0, true))]), 0, []);
      Fcntl(Linux64, st, 3, LinuxConsts.fDupfd, Some(10), CloneEight).value == 4
  {
    InsertWithMinFdUndershoots();
    var st := State(FileHandler([Entry(3, FileHandle(0, true))]), 0, []);
    assert View(st.fds) == map[3 := FileHandle(0, true)];
  }

  /** A host that supplies only the modification time gets STATX_TYPE,
      STATX_SIZE and STATX_MTIME reported, and no other time bit. */
  lemma StatxMaskOnlyMtime(md: FileMetadata)
    requires md.created.None? && md.accessed.None? && md.modified.Some?
    ensures ReportedMask(LinuxConsts, md) == {0, 9, 6}
    ensures !(LinuxConsts.statxAtime <= ReportedMask(LinuxConsts, md))
    ensures !(LinuxConsts.statxBtime <= ReportedMask(LinuxConsts, md))
  {
  }

  /** On 64-bit macOS every value the stat shims write fits its C type, so
      `macos_stat_write_buf` never aborts. */
  lemma MacStatFitsOn64Bit(st: State, md: FileMetadata)
    requires Reportable(md)
    ensures MacosStatWriteBuf(MacOs64, st, md) == Done(st, StatReply(0, Some(MacStatFields(MacOs64, md))))
  {
    MacStatFits(MacOs64, md);
  }
}

=== FILE: stat.dfy ===
/** The `stat` family: Linux `statx` and macOS `stat`, `lstat` and `fstat`.
    Each fills a C structure field by field; the model keeps the list of
    fields written (value and byte width) rather than their bytes. */
module Stat {
  import opened Common
  import opened Platform
  import opened Machine
  import opened Metadata

  /** One immediate written to the structure: an unsigned integer, or a flag word
      given by its one bits; `width` is its size in bytes. */
  datatype Field = Uint(value: int, width: nat) | FlagWord(bits: Bits, width: nat)

  /** The value written back to the guest (`0` or `-1`) and, on success, the
      fields written to the guest's buffer. */
  datatype StatReply = StatReply(ret: int, written: Option<seq<Field>>)

  function Pow256(n: nat): (p: nat)
    ensures p >= 1
  {
    if n == 0 then 1 else 256 * Pow256(n - 1)
  }

  lemma Pow256Widths()
    ensures Pow256(2) == 0x1_0000 && Pow256(4) == 0x1_0000_0000 && Pow256(8) == U64Modulus
  {
    assert Pow256(4) == 0x1_0000_0000;
  }

  /** `immty_from_uint_checked`: the value fits the field's width. */
  predicate Fits(f: Field) {
    match f
    case Uint(v, w) => 0 <= v < Pow256(w)
    case FlagWord(b, w) => forall i :: i in b ==> i < 8 * w
  }

  predicate AllFit(fs: seq<Field>) {
    forall i :: 0 <= i < |fs| ==> Fits(fs[i])
  }

  function Sec(t: Option<Timestamp>): int {
    if t.Some? then t.value.sec else 0
  }

  function Nsec(t: Option<Timestamp>): int {
    if t.Some? then t.value.nsec else 0
  }

  predicate WordBits(b: Bits) {
    forall i :: i in b ==> i < 32
  }

  /** The statx constants are 32-bit words, with TYPE, SIZE, ATIME, BTIME and
      MTIME nonempty and apart from one another. */
  predicate StatxConstsWellFormed(c: Consts) {
    && WordBits(c.statxType) && WordBits(c.statxSize)
    && WordBits(c.statxAtime) && WordBits(c.statxBtime) && WordBits(c.statxMtime)
    && c.statxAtime != {} && c.statxBtime != {} && c.statxMtime != {}
    && c.statxAtime * (c.statxType + c.statxSize + c.statxBtime + c.statxMtime) == {}
    && c.statxBtime * (c.statxType + c.statxSize + c.statxAtime + c.statxMtime) == {}
    && c.statxMtime * (c.statxType + c.statxSize + c.statxAtime + c.statxBtime) == {}
  }

  /** The `stx_mask` statx reports: type and size always, and each of the
      access, birth and modification times the host had. The mask the caller
      asked for is not consulted. */
  function ReportedMask(c: Consts, md: FileMetadata): (m: Bits)
    ensures c.statxType + c.statxSize <= m
    ensures m <= c.statxType + c.statxSize + c.statxAtime + c.statxBtime + c.statxMtime
  {
    c.statxType + c.statxSize
      + (if md.accessed.Some? then c.statxAtime else {})
      + (if md.created.Some? then c.statxBtime else {})
      + (if md.modified.Some? then c.statxMtime else {})
  }

  /** The 28 immediates of `struct statx`, in order: the reported data sit at
      the mask (0), mode (6), size (9) and the seconds and nanoseconds of the
      access (12, 13), birth (15, 16) and modification (21, 22) times; every
      other field is zero. A missing time is written as zero. */
  function StatxFields(mask: Bits, md: FileMetadata): (fs: seq<Field>)
    ensures |fs| == 28
    ensures forall i :: 0 <= i < |fs| && i !in StatxDataSlots ==> fs[i].Uint? && fs[i].value == 0
  {
    [ FlagWord(mask, 4), Uint(0, 4), Uint(0, 8), Uint(0, 4), Uint(0, 4), Uint(0, 4),
      Uint(md.mode, 2), Uint(0, 2), Uint(0, 8), Uint(md.size, 8), Uint(0, 8), Uint(0, 8),
      Uint(Sec(md.accessed), 8), Uint(Nsec(md.accessed), 4), Uint(0, 4),
      Uint(Sec(md.created), 8), Uint(Nsec(md.created), 4), Uint(0, 4),
      Uint(0, 8), Uint(0, 4), Uint(0, 4),
      Uint(Sec(md.modified), 8), Uint(Nsec(md.modified), 4), Uint(0, 4),
      Uint(0, 8), Uint(0, 8), Uint(0, 8), Uint(0, 8) ]
  }

  /** The positions of `struct statx` that carry reported data. */
  const StatxDataSlots: set<int> := {0, 6, 9, 12, 13, 15, 16, 21, 22}

  /** Metadata as the stat shims receive it: a mode that fits 16 bits and
      nanoseconds below one second. */
  predicate Reportable(md: FileMetadata) {
    && 0 <= md.mode < 0x1_0000
    && (md.created.Some? ==> md.created.value.nsec < Metadata.NanosPerSecond)
    && (md.accessed.Some? ==> md.accessed.value.nsec < Metadata.NanosPerSecond)
    && (md.modified.Some? ==> md.modified.value.nsec < Metadata.NanosPerSecond)
  }

  /** Every statx immediate fits its width, so writing the structure never fails. */
  lemma StatxFieldsFit(c: Consts, md: FileMetadata)
    requires StatxConstsWellFormed(c) && Reportable(md)
    ensures AllFit(StatxFields(ReportedMask(c, md), md))
  {
    var fs := StatxFields(ReportedMask(c, md), md);
    Pow256Widths();
    forall i | 0 <= i < |fs| ensures Fits(fs[i]) {
    }
  }

  lemma StatxFieldsFitIfWellFormed(c: Consts, md: FileMetadata)
    ensures StatxConstsWellFormed(c) && Reportable(md) ==> AllFit(StatxFields(ReportedMask(c, md), md))
  {
    if StatxConstsWellFormed(c) && Reportable(md) {
      StatxFieldsFit(c, md);
    }
  }

  /** A timestamp read back from its seconds and nanoseconds fields. */
  function TimeField(present: bool, sec: Field, nsec: Field): Option<Timestamp> {
    if present && sec.Uint? && 0 <= sec.value < U64Modulus && nsec.Uint? && 0 <= nsec.value
    then Some(Timestamp(sec.value, nsec.value))
    else None
  }

  /** How a reader of `struct statx` recovers the metadata: the mode, the size,
      and each time whose bit the mask reports. */
  function ReadStatx(c: Consts, fs: seq<Field>): Option<FileMetadata> {
    if |fs| != 28 || !fs[0].FlagWord? || !fs[6].Uint? || !fs[9].Uint? || !(0 <= fs[9].value < U64Modulus)
    then None
    else
      var mask := fs[0].bits;
      Some(FileMetadata(fs[6].value, fs[9].value,
        TimeField(c.statxBtime <= mask, fs[15], fs[16]),
        TimeField(c.statxAtime <= mask, fs[12], fs[13]),
        TimeField(c.statxMtime <= mask, fs[21], fs[22])))
  }

  /** The reported mask holds the ATIME, BTIME and MTIME bits exactly when the
      corresponding time is present. */
  lemma ReportedMaskTimes(c: Consts, md: FileMetadata)
    requires StatxConstsWellFormed(c)
    ensures c.statxAtime <= ReportedMask(c, md) <==> md.accessed.Some?
    ensures c.statxBtime <= ReportedMask(c, md) <==> md.created.Some?
    ensures c.statxMtime <= ReportedMask(c, md) <==> md.modified.Some?
  {
    var a := if md.accessed.Some? then c.statxAtime else {};
    var b := if md.created.Some? then c.statxBtime else {};
    var m := if md.modified.Some? then c.statxMtime else {};
    var ts := c.statxType + c.statxSize;
    MaskBit(c.statxAtime, md.accessed.Some?, ts, ReportedMask(c, md), b + m);
    MaskBit(c.statxBtime, md.created.Some?, ts + a, ReportedMask(c, md), m);
    MaskBit(c.statxMtime, md.modified.Some?, ts + a + b, ReportedMask(c, md), {});
  }

  /** What statx writes reads back as the metadata it came from: the mask tells
      exactly which times are present. */
  lemma StatxRoundTrip(c: Consts, md: FileMetadata)
    requires StatxConstsWellFormed(c)
    ensures ReadStatx(c, StatxFields(ReportedMask(c, md), md)) == Some(md)
  {
    ReportedMaskTimes(c, md);
    StatxReadBack(c, ReportedMask(c, md), md);
  }

  /** Any mask whose time bits match the times present reads back the metadata. */
  lemma StatxReadBack(c: Consts, mask: Bits, md: FileMetadata)
    requires c.statxAtime <= mask <==> md.accessed.Some?
    requires c.statxBtime <= mask <==> md.created.Some?
    requires c.statxMtime <= mask <==> md.modified.Some?
    ensures ReadStatx(c, StatxFields(mask, md)) == Some(md)
  {
    TimeFieldBack(md.accessed);
    TimeFieldBack(md.created);
    TimeFieldBack(md.modified);
  }

  lemma TimeFieldBack(t: Option<Timestamp>)
    ensures TimeField(t.Some?, Uint(Sec(t), 8), Uint(Nsec(t), 4)) == t
  {
  }

  /** A nonempty bit group apart from the rest of a mask is wholly in the mask
      exactly when it was put in. */
  lemma MaskBit(bit: Bits, on: bool, before: Bits, mask: Bits, after: Bits)
    requires bit != {}
    requires bit * before == {} && bit * after == {}
    requires mask == before + (if on then bit else {}) + after
    ensures bit <= mask <==> on
  {
  }

  /** `statx` succeeds only for absolute paths, paths relative to AT_FDCWD, and
      an empty path with AT_EMPTY_PATH (which means the descriptor itself).
      Absolute means beginning with `/`, as on a Unix host. */
  predicate Addressable(c: Consts, path: string, dirfd: int, emptyPath: bool) {
    (|path| > 0 && path[0] == '/') || dirfd == c.atFdcwd || (path == [] && emptyPath)
  }

  /** What `statx` returns for the host's answer `meta`: `-1` with the host's
      errno when the host fails; an abort exactly when an available time precedes
      the epoch; otherwise (with well-formed constants) `0`, the state unchanged,
      and the fields of the metadata that describes the host's answer. */
  ghost predicate StatxAnswers(c: Consts, st: State, meta: Io<HostMetadata>, r: Eval<StatReply>) {
    && (meta.Failure? ==> r == Done(st.(lastError := meta.errno), StatReply(-1, None)))
    && (meta.Success? ==> (r == Abort(TimeBeforeEpoch) <==> BeforeEpoch(meta.value)))
    && (meta.Success? && !BeforeEpoch(meta.value) && StatxConstsWellFormed(c) ==> r.Done?)
    && (meta.Success? && r.Done? ==>
          && r.st == st && r.value.ret == 0
          && exists md :: Describes(c, md, meta.value) && r.value.written == Some(StatxFields(ReportedMask(c, md), md)))
  }

  /** `linux_statx(dirfd, pathname, flags, mask, statxbuf)`. `dirfd` and `flags`
      arrive as pointer-sized integers and must fit an `i32`; `path` is the string
      `pathPtr` leads to. Every field is checked against its width before the
      structure is written; with well-formed constants none fails. */
  function Statx(cfg: Config, st: State, host: MetadataHost,
                 dirfd: int, pathPtr: int, path: string, flags: int, bufPtr: int): (r: Eval<StatReply>)
    requires ValidHost(host)
    requires ModesFitU16(cfg.consts)
    ensures cfg.isolated || cfg.os != Linux ==> r == Abort(Unsupported)
    ensures r.Abort? ==> r.why == Unsupported || r.why == TimeBeforeEpoch
    ensures !cfg.isolated && cfg.os == Linux && (IsNull(bufPtr) || IsNull(pathPtr)) ==>
      r == Done(st.(lastError := cfg.consts.eFault), StatReply(-1, None))
    ensures !cfg.isolated && cfg.os == Linux && !IsNull(bufPtr) && !IsNull(pathPtr) && StatxConstsWellFormed(cfg.consts) ==>
      (r == Abort(Unsupported) <==>
        !IsI32(flags) || !IsI32(dirfd) ||
        !Addressable(cfg.consts, path, dirfd, I32AsBits(flags) * cfg.consts.atEmptyPath != {}))
    ensures (!cfg.isolated && cfg.os == Linux && !IsNull(bufPtr) && !IsNull(pathPtr) && IsI32(flags) && IsI32(dirfd)
             && Addressable(cfg.consts, path, dirfd, I32AsBits(flags) * cfg.consts.atEmptyPath != {})) ==>
      if path == [] && I32AsBits(flags) * cfg.consts.atEmptyPath != {} then
        if dirfd in FdTable.View(st.fds) then StatxAnswers(cfg.consts, st, host.ofFile(FdTable.View(st.fds)[dirfd].file), r)
        else r == Done(st.(lastError := cfg.consts.eBadf), StatReply(-1, None))
      else StatxAnswers(cfg.consts, st, host.byPath(path, I32AsBits(flags) * cfg.consts.atSymlinkNofollow == {}), r)
    ensures r.Done? ==> r.st.fds == st.fds && r.st.mem == st.mem
    ensures r.Done? ==> (r.value.ret == 0 <==> r.value.written.Some?) && (r.value.ret == 0 || r.value.ret == -1)
    ensures r.Done? && r.value.written.Some? ==>
      exists md :: Reportable(md) && r.value.written.value == StatxFields(ReportedMask(cfg.consts, md), md)
  {
    var c := cfg.consts;
    if cfg.isolated || cfg.os != Linux then Abort(Unsupported)
    else if IsNull(bufPtr) || IsNull(pathPtr) then Done(SetLastError(st, c.eFault), StatReply(-1, None))
    else if !IsI32(flags) then Abort(Unsupported)
    else
      var emptyPath := I32AsBits(flags) * c.atEmptyPath != {};
      if !IsI32(dirfd) then Abort(Unsupported)
      else if !Addressable(c, path, dirfd, emptyPath) then Abort(Unsupported)
      else
        StatxLookup(c, st, host, dirfd, path, emptyPath, I32AsBits(flags) * c.atSymlinkNofollow == {})
  }

  /** The lookup `statx` makes once the addressing is accepted: the descriptor
      `dirfd` itself for an empty path with AT_EMPTY_PATH, otherwise the path,
      following a final symbolic link when `follow` holds. */
  function StatxLookup(c: Consts, st: State, host: MetadataHost, dirfd: int, path: string,
                       emptyPath: bool, follow: bool): (r: Eval<StatReply>)
    requires ValidHost(host)
    requires ModesFitU16(c)
    ensures if path == [] && emptyPath then
        if dirfd in FdTable.View(st.fds) then StatxAnswers(c, st, host.ofFile(FdTable.View(st.fds)[dirfd].file), r)
        else r == Done(st.(lastError := c.eBadf), StatReply(-1, None))
      else StatxAnswers(c, st, host.byPath(path, follow), r)
    ensures r.Abort? ==> r.why == TimeBeforeEpoch || (r.why == Unsupported && !StatxConstsWellFormed(c))
    ensures r.Done? ==> r.st.fds == st.fds && r.st.mem == st.mem
    ensures r.Done? ==> (r.value.ret == 0 <==> r.value.written.Some?) && (r.value.ret == 0 || r.value.ret == -1)
    ensures r.Done? && r.value.written.Some? ==>
      exists md :: Reportable(md) && r.value.written.value == StatxFields(ReportedMask(c, md), md)
  {
    if path == [] && emptyPath then StatxByFd(c, st, host, dirfd) else StatxByPath(c, st, host, path, follow)
  }

  /** `statx` of the open descriptor `fd` (an empty path with AT_EMPTY_PATH). */
  function StatxByFd(c: Consts, st: State, host: MetadataHost, fd: int): (r: Eval<StatReply>)
    requires ValidHost(host)
    requires ModesFitU16(c)
    ensures fd in FdTable.View(st.fds) ==> StatxAnswers(c, st, host.ofFile(FdTable.View(st.fds)[fd].file), r)
    ensures fd !in FdTable.View(st.fds) ==> r == Done(st.(lastError := c.eBadf), StatReply(-1, None))
    ensures r.Abort? ==> r.why == TimeBeforeEpoch || (r.why == Unsupported && !StatxConstsWellFormed(c))
    ensures r.Done? ==> r.st.fds == st.fds && r.st.mem == st.mem
    ensures r.Done? ==> (r.value.ret == 0 <==> r.value.written.Some?) && (r.value.ret == 0 || r.value.ret == -1)
    ensures r.Done? && r.value.written.Some? ==>
      exists md :: Reportable(md) && r.value.written.value == StatxFields(ReportedMask(c, md), md)
  {
    var meta := FromFd(c, st, host, fd);
    assert meta.Done? && meta.value.Some? ==> Reportable(meta.value.value);
    if fd in FdTable.View(st.fds) then
      StatxAnswersFromMeta(c, st, host.ofFile(FdTable.View(st.fds)[fd].file));
      StatxReply(c, meta)
    else StatxReply(c, meta)
  }

  /** `statx` of `path`, following a final symbolic link when `follow` holds. */
  function StatxByPath(c: Consts, st: State, host: MetadataHost, path: string, follow: bool): (r: Eval<StatReply>)
    requires ValidHost(host)
    requires ModesFitU16(c)
    ensures StatxAnswers(c, st, host.byPath(path, follow), r)
    ensures r.Abort? ==> r.why == TimeBeforeEpoch || (r.why == Unsupported && !StatxConstsWellFormed(c))
    ensures r.Done? ==> r.st.fds == st.fds && r.st.mem == st.mem
    ensures r.Done? ==> (r.value.ret == 0 <==> r.value.written.Some?) && (r.value.ret == 0 || r.value.ret == -1)
    ensures r.Done? && r.value.written.Some? ==>
      exists md :: Reportable(md) && r.value.written.value == StatxFields(ReportedMask(c, md), md)
  {
    var meta := FromPath(c, st, host, path, follow);
    assert meta.Done? && meta.value.Some? ==> Reportable(meta.value.value);
    StatxAnswersFromMeta(c, st, host.byPath(path, follow));
    StatxReply(c, meta)
  }

  /** `statx` on the host's answer: what it returns is as `StatxAnswers` says. */
  lemma StatxAnswersFromMeta(c: Consts, st: State, meta: Io<HostMetadata>)
    requires meta.Success? ==> ValidHostMetadata(meta.value)
    requires ModesFitU16(c)
    ensures StatxAnswers(c, st, meta, StatxReply(c, FromMeta(c, st, meta)))
  {
    var m := FromMeta(c, st, meta);
    if m.Done? && m.value.Some? {
      var md := m.value.value;
      assert Reportable(md);
      assert Describes(c, md, meta.value);
    }
  }

  /** The common tail of `statx`: metadata that could not be had returns `-1`
      (the last error already set); otherwise every field is checked against its
      width and the structure written. */
  function StatxReply(c: Consts, meta: Eval<Option<FileMetadata>>): (r: Eval<StatReply>)
    ensures meta.Abort? ==> r == Abort(meta.why)
    ensures meta.Done? && meta.value.None? ==> r == Done(meta.st, StatReply(-1, None))
    ensures meta.Done? && meta.value.Some? ==>
      var md := meta.value.value;
      && (r.Abort? ==> r.why == Unsupported && !AllFit(StatxFields(ReportedMask(c, md), md)))
      && (StatxConstsWellFormed(c) && Reportable(md) ==> r.Done?)
      && (r.Done? ==> AllFit(StatxFields(ReportedMask(c, md), md)))
      && (r.Done? ==> r.st == meta.st && r.value == StatReply(0, Some(StatxFields(ReportedMask(c, md), md))))
  {
    match meta
    case Abort(why) => Abort(why)
    case Done(st', None) => Done(st', StatReply(-1, None))
    case Done(st', Some(md)) =>
      StatxFieldsFitIfWellFormed(c, md);
      var fs := StatxFields(ReportedMask(c, md), md);
      if !AllFit(fs) then Abort(Unsupported) else Done(st', StatReply(0, Some(fs)))
  }

  /** The 21 immediates of the macOS `struct stat`, in order, with the widths of
      the target's C types. The padding after `st_rdev` is a `uint32_t` on 64-bit
      targets and empty otherwise. A missing time is written as zero. */
  function MacStatFields(cfg: Config, md: FileMetadata): (fs: seq<Field>)
    ensures |fs| == 21
    ensures forall i :: 0 <= i < |fs| ==> fs[i].Uint?
    ensures forall i :: 0 <= i < |fs| && i !in MacStatDataSlots ==> fs[i].value == 0
  {
    var l := cfg.layouts;
    var pad := if cfg.ptrWidth == 64 then l.uint32T else 0;
    [ Uint(0, l.devT), Uint(md.mode, l.modeT), Uint(0, l.nlinkT), Uint(0, l.inoT),
      Uint(0, l.uidT), Uint(0, l.gidT), Uint(0, l.devT), Uint(0, pad),
      Uint(Sec(md.accessed), l.timeT), Uint(Nsec(md.accessed), l.cLong),
      Uint(Sec(md.modified), l.timeT), Uint(Nsec(md.modified), l.cLong),
      Uint(0, l.timeT), Uint(0, l.cLong),
      Uint(Sec(md.created), l.timeT), Uint(Nsec(md.created), l.cLong),
      Uint(md.size, l.offT), Uint(0, l.blkcntT), Uint(0, l.blksizeT),
      Uint(0, l.uint32T), Uint(0, l.uint32T) ]
  }

  /** The positions of the macOS `struct stat` that carry reported data. */
  const MacStatDataSlots: set<int> := {1, 8, 9, 10, 11, 14, 15, 16}

  /** How a reader of the macOS `struct stat` recovers the metadata. The structure
      has no mask, so every time reads back present. */
  function ReadMacStat(fs: seq<Field>): Option<FileMetadata> {
    if |fs| != 21 || !fs[1].Uint? || !fs[16].Uint? || !(0 <= fs[16].value < U64Modulus)
    then None
    else Some(FileMetadata(fs[1].value, fs[16].value,
      TimeField(true, fs[14], fs[15]), TimeField(true, fs[8], fs[9]), TimeField(true, fs[10], fs[11])))
  }

  /** A missing time as the macOS structure shows it. */
  function ZeroIfMissing(t: Option<Timestamp>): Option<Timestamp> {
    Some(if t.Some? then t.value else Timestamp(0, 0))
  }

  /** What the macOS shims write reads back as the metadata it came from, with
      each missing time shown as the epoch. */
  lemma MacStatRoundTrip(cfg: Config, md: FileMetadata)
    ensures ReadMacStat(MacStatFields(cfg, md)) ==
      Some(md.(created := ZeroIfMissing(md.created), accessed := ZeroIfMissing(md.accessed),
               modified := ZeroIfMissing(md.modified)))
  {
  }

  /** The C types are wide enough for what is written to them: 16 bits of mode,
      64-bit seconds and sizes, and room for nanoseconds below one second. */
  predicate WideEnough(l: MacLayouts) {
    l.modeT >= 2 && l.timeT >= 8 && l.cLong >= 4 && l.offT >= 8
  }

  lemma {:induction false} Pow256Grows(v: int, w: nat, w': nat)
    requires w <= w' && 0 <= v < Pow256(w)
    ensures v < Pow256(w')
    decreases w'
  {
    if w < w' {
      Pow256Grows(v, w, w' - 1);
    }
  }

  lemma UintFits(v: int, w: nat, need: nat)
    requires need <= w && 0 <= v < Pow256(need)
    ensures Fits(Uint(v, w))
  {
    Pow256Grows(v, need, w);
  }

  /** With wide enough C types every value the macOS shims write fits, so
      `macos_stat_write_buf` aborts only on a mode outside `u16`. */
  lemma MacStatFits(cfg: Config, md: FileMetadata)
    requires Reportable(md) && WideEnough(cfg.layouts)
    ensures AllFit(MacStatFields(cfg, md))
  {
    var l := cfg.layouts;
    var fs := MacStatFields(cfg, md);
    Pow256Widths();
    UintFits(md.mode, l.modeT, 2);
    UintFits(md.size, l.offT, 8);
    UintFits(Sec(md.accessed), l.timeT, 8);
    UintFits(Sec(md.modified), l.timeT, 8);
    UintFits(Sec(md.created), l.timeT, 8);
    UintFits(Nsec(md.accessed), l.cLong, 4);
    UintFits(Nsec(md.modified), l.cLong, 4);
    UintFits(Nsec(md.created), l.cLong, 4);
    forall i | 0 <= i < |fs| ensures Fits(fs[i]) {
      if i !in MacStatDataSlots {
        assert fs[i] == Uint(0, fs[i].width);
      }
    }
  }

  /** `macos_stat_write_buf`: a mode outside `u16`, or a value that does not
      fit its C type, aborts; otherwise the fields are written and `0` returned.
      In-range metadata on wide enough C types is always written, and what is
      written reads back as the metadata, each missing time as the epoch. */
  function MacosStatWriteBuf(cfg: Config, st: State, md: FileMetadata): (r: Eval<StatReply>)
    ensures r.Abort? ==> r.why == Unsupported
    ensures r.Abort? ==> !(0 <= md.mode < 0x1_0000) || !AllFit(MacStatFields(cfg, md))
    ensures Reportable(md) && WideEnough(cfg.layouts) ==> r.Done?
    ensures r.Done? ==> r.st == st && r.value.ret == 0 && r.value.written == Some(MacStatFields(cfg, md))
    ensures r.Done? ==> 0 <= md.mode < 0x1_0000 && AllFit(r.value.written.value)
    ensures r.Done? ==>
      ReadMacStat(r.value.written.value) ==
        Some(md.(created := ZeroIfMissing(md.created), accessed := ZeroIfMissing(md.accessed),
                 modified := ZeroIfMissing(md.modified)))
  {
    var fs := MacStatFields(cfg, md);
    MacStatRoundTrip(cfg, md);
    assert Reportable(md) && WideEnough(cfg.layouts) ==> AllFit(fs) by {
      if Reportable(md) && WideEnough(cfg.layouts) { MacStatFits(cfg, md); }
    }
    if !(0 <= md.mode < 0x1_0000) || !AllFit(fs) then Abort(Unsupported) else Done(st, StatReply(0, Some(fs)))
  }

  /** The common tail of the macOS shims: metadata that could not be had returns
      `-1` (the last error already set); otherwise the structure is written. */
  function MacosReply(cfg: Config, meta: Eval<Option<FileMetadata>>): (r: Eval<StatReply>)
    ensures meta.Abort? ==> r == Abort(meta.why)
    ensures meta.Done? && meta.value.None? ==> r == Done(meta.st, StatReply(-1, None))
    ensures meta.Done? && meta.value.Some? ==> r == MacosStatWriteBuf(cfg, meta.st, meta.value.value)
  {
    match meta
    case Abort(why) => Abort(why)
    case Done(st', None) => Done(st', StatReply(-1, None))
    case Done(st', Some(md)) => MacosStatWriteBuf(cfg, st', md)
  }

  /** What a macOS stat shim returns for the host's answer `meta`: `-1` with the
      host's errno when the host fails; an abort for a time before the epoch
      exactly when the host has one; an unsupported abort only when the mode or
      some field of the describing metadata does not fit; otherwise the fields
      describing the file, which are always written when the C types are wide
      enough and the file-type constants fit 16 bits. */
  ghost predicate MacosAnswers(cfg: Config, st: State, meta: Io<HostMetadata>, r: Eval<StatReply>) {
    && (r.Abort? ==> r.why == Unsupported || r.why == TimeBeforeEpoch)
    && (r.Done? ==> r.st.fds == st.fds && r.st.mem == st.mem)
    && (meta.Failure? ==> r == Done(st.(lastError := meta.errno), StatReply(-1, None)))
    && (meta.Success? ==> (r == Abort(TimeBeforeEpoch) <==> BeforeEpoch(meta.value)))
    && (meta.Success? && !BeforeEpoch(meta.value) && WideEnough(cfg.layouts) && ModesFitU16(cfg.consts) ==> r.Done?)
    && (meta.Success? && r == Abort(Unsupported) ==>
          exists md :: Describes(cfg.consts, md, meta.value)
            && (!(0 <= md.mode < 0x1_0000) || !AllFit(MacStatFields(cfg, md))))
    && (meta.Success? && r.Done? ==>
          r.st == st && r.value.ret == 0 && r.value.written.Some?
          && exists md :: Describes(cfg.consts, md, meta.value) && r.value.written.value == MacStatFields(cfg, md))
  }

  /** `macos_stat(path, buf)`: describes the file a symbolic link leads to. */
  function MacosStat(cfg: Config, st: State, host: MetadataHost, path: string): (r: Eval<StatReply>)
    requires ValidHost(host)
    ensures cfg.isolated || cfg.os != MacOs ==> r == Abort(Unsupported)
    ensures !cfg.isolated && cfg.os == MacOs ==> MacosAnswers(cfg, st, host.byPath(path, true), r)
  {
    if cfg.isolated || cfg.os != MacOs then Abort(Unsupported)
    else MacosReply(cfg, FromPath(cfg.consts, st, host, path, true))
  }

  /** `macos_lstat(path, buf)`: describes a symbolic link itself. */
  function MacosLstat(cfg: Config, st: State, host: MetadataHost, path: string): (r: Eval<StatReply>)
    requires ValidHost(host)
    ensures cfg.isolated || cfg.os != MacOs ==> r == Abort(Unsupported)
    ensures !cfg.isolated && cfg.os == MacOs ==> MacosAnswers(cfg, st, host.byPath(path, false), r)
  {
    if cfg.isolated || cfg.os != MacOs then Abort(Unsupported)
    else MacosReply(cfg, FromPath(cfg.consts, st, host, path, false))
  }

  /** `macos_fstat(fd, buf)`: an unknown descriptor returns `-1` with EBADF. */
  function MacosFstat(cfg: Config, st: State, host: MetadataHost, fd: int): (r: Eval<StatReply>)
    requires ValidHost(host)
    ensures cfg.isolated || cfg.os != MacOs ==> r == Abort(Unsupported)
    ensures !cfg.isolated && cfg.os == MacOs && fd !in FdTable.View(st.fds) ==>
      r == Done(st.(lastError := cfg.consts.eBadf), StatReply(-1, None))
    ensures !cfg.isolated && cfg.os == MacOs && fd in FdTable.View(st.fds) ==>
      MacosAnswers(cfg, st, host.ofFile(FdTable.View(st.fds)[fd].file), r)
  {
    if cfg.isolated || cfg.os != MacOs then Abort(Unsupported)
    else MacosReply(cfg, FromFd(cfg.consts, st, host, fd))
  }
}
